=== FILE: README.md ===
# Segment indexing and parser helpers of YaCy, modelled in Dafny

This project models two parts of the YaCy search engine:

- The index segment (`Segment`). It holds three stores:
  - a full-text store with one record per URL;
  - a term index (reverse word index) mapping each word hash to its postings;
  - a citation index mapping a URL hash to the URLs that link to it.

  The model covers:
  - the connect and disconnect guards of the two indexes;
  - direct posting writes (`storeRWI`), the query count, and `clear`;
  - the language vote (`votedLanguage`);
  - document indexing (`storeDocument`, `addCitationIndex`);
  - URL deletion (`removeAllUrlReferences`, both overloads).
- The static helpers of the parser front end (`plasmaParser`):
  - charset-name repair (`patchCharsetEncoding`);
  - MIME-type normalisation and file-extension extraction;
  - extension lists and the extension-set lookups;
  - the parser-mode check of `supportedContent`;
  - the two URL-derivation helpers `allReflinks` and `allSubpaths`.

The model is purely functional. A segment is an immutable value, and every operation returns the new segment. Foreign collaborators are function parameters:

- the word hash `Word.word2hash`;
- `ISO639.country`;
- the loader and parser used on deletion;
- the per-mode parser configuration;
- the URL constructor's accept/reject verdict.

Failures the source catches and logs are explicit inputs: a `Faults` value, a `failAt` step, or a `bufferFull` flag. Java strings are `seq<char>`:

- `trim` strips every character up to U+0020;
- case mapping covers the ASCII letters;
- `split(",")` drops trailing empty pieces;
- the regular expressions become predicates over the characters.

Files:

| file | module | contents |
|---|---|---|
| `base.dfy` | `Base` | `Option`, `Result`, the modelled exceptions |
| `javatext.dfy` | `JavaText` | `trim`, case mapping, `indexOf`/`lastIndexOf`, and the lemmas relating them |
| `keyedstore.dfy` | `KeyedStore` | an index cell as a map from hash to an ordered container |
| `segment.dfy` | `SegmentModel` | entities, connection guards, `storeRWI`, `getQueryCount`, `clear`, batch removal |
| `language.dfy` | `Language` | `votedLanguage` |
| `indexing.dfy` | `Indexing` | `storeDocument`, `addCitationIndex` |
| `deletion.dfy` | `Deletion` | `removeAllUrlReferences`, and deletion after indexing |
| `charsets.dfy` | `Charsets` | `patchCharsetEncoding` |
| `mimetypes.dfy` | `MimeTypes` | `normalizeMimeType`, `getFileExt` |
| `extensions.dfy` | `Extensions` | `extString2extList`, the extension sets, `supportedContent` |
| `urlderivation.dfy` | `UrlDerivation` | `allReflinks`, `allSubpaths` |

Two behaviours of the code worth noting:

- When reloading or re-parsing a URL fails, `removeAllUrlReferences` keeps the URL's full-text record. It returns 0 from its catch clauses before the record is removed.
- `storeDocument` writes the catch-all posting even when `storeToRWI` is off, as long as a search event is running and the term index is connected.

## Model

| member | source | states |
|---|---|---|
| SegmentModel.ConnectRWI | source/net/yacy/search/index/Segment.java:123-135 | afterwards the term index is connected; an open index is left exactly as it was; a closed one opens on its stored contents; the other stores do not change |
| SegmentModel.DisconnectRWI | source/net/yacy/search/index/Segment.java:137-141 | afterwards the term index is closed and the citation index and full-text store are unchanged |
| SegmentModel.ConnectCitation | source/net/yacy/search/index/Segment.java:147-159 | the citation-index counterpart of ConnectRWI |
| SegmentModel.DisconnectCitation | source/net/yacy/search/index/Segment.java:161-165 | the citation-index counterpart of DisconnectRWI |
| SegmentModel.ConnectionGuards | source/net/yacy/search/index/Segment.java:123-165 | connecting twice equals connecting once and disconnecting twice equals disconnecting once; disconnecting and then reconnecting to the flushed contents restores the segment |
| SegmentModel.StoreRWI | source/net/yacy/search/index/Segment.java:334-336 | a no-op when the term index is disconnected; a full buffer raises SpaceExceeded; otherwise exactly the term's container gains the entry at its end |
| SegmentModel.StoreRWIContainer | source/net/yacy/search/index/Segment.java:330-332 | the container overload: the term's container is extended by the whole container and no other container changes |
| SegmentModel.QueryCount | source/net/yacy/search/index/Segment.java:201-206 | 0 for a missing word or one containing ':', ' ' or '/'; otherwise the size of the word's container plus the full-text hit count, with a failed full-text query counting 0 |
| SegmentModel.StoreRWIRaisesQueryCount | source/net/yacy/search/index/Segment.java:201-206 | after a successful direct write of a queryable word, its query count is exactly one higher |
| SegmentModel.Clear | source/net/yacy/search/index/Segment.java:244-251 | the connection state is always kept; each store is emptied exactly when no step up to and including its own raises, and is otherwise unchanged; a step on a disconnected index does not run and cannot raise |
| SegmentModel.ClearIdempotent | source/net/yacy/search/index/Segment.java:244-251 | clearing a cleared segment changes nothing even when a step fails; a full clear after a failed one gives the full clear; afterwards a query count is the full-text count alone |
| SegmentModel.TermHashes | source/net/yacy/search/index/Segment.java:492-496 | the hashes of a word set, without duplicates: a hash is listed exactly when some word has it |
| SegmentModel.UntaggedSplit | source/net/yacy/search/index/Segment.java:496 | removing a URL from a container splits it into the kept postings and that URL's postings, as a multiset |
| SegmentModel.RemoveUrlContents | source/net/yacy/search/index/Segment.java:496 | the batch removal takes exactly the URL's postings from every listed container and keeps the order of the rest; unlisted containers are untouched |
| SegmentModel.RemoveUrlCount | source/net/yacy/search/index/Segment.java:495-496 | over distinct hashes, the returned count is the number of the URL's postings that the listed containers held before |
| Language.VotedLanguage | source/net/yacy/search/index/Segment.java:288-328 | the result is always one of the signals; without statistics it is the metadata, else the TLD; a statistic alone survives exactly when the TLD or a `/lang/` or `/country/` URL segment confirms it; with all three present, two agreeing signals win and a three-way disagreement takes the metadata |
| Language.MajorityDecides | source/net/yacy/search/index/Segment.java:313-324 | any two agreeing signals decide the three-way vote, and the metadata breaks a three-way tie |
| Language.VoteExamples | source/net/yacy/search/index/Segment.java:300-311 | English statistics on a German TLD survive with an `/en/` URL segment and fall back to `de` without it; a three-way disagreement takes the metadata |
| Indexing.ModDate | source/net/yacy/search/index/Segment.java:361-362 | the modification date is the earlier of the last-modified header and the load date |
| Indexing.CatchallProps | source/net/yacy/search/index/Segment.java:82-87 | the catch-all posting borrows the last word's properties; with no words it uses the default word, whose 4 flags are all set |
| Indexing.InjectEntries | source/net/yacy/search/index/Segment.java:418-428 | every pushed entry is the posting of a word whose append did not fail, filed under that word's hash and carrying that word's properties, and its hash is included by the search and not excluded |
| Indexing.InjectComplete | source/net/yacy/search/index/Segment.java:418-428 | without injection faults, every included and not excluded word is pushed |
| Indexing.AddCitationIndex | source/net/yacy/search/index/Segment.java:261-280 | the count is the number of anchors, whether or not the citation index is connected or an append failed; missing anchors or a disconnected index change nothing; only the citation index is written |
| Indexing.CitationEntriesComplete | source/net/yacy/search/index/Segment.java:268-278 | without faults, the citations are one entry per anchor, in anchor order, each filed under the anchor's hash with the citing URL's hash and the modification date |
| Indexing.CitationFanOut | source/net/yacy/search/index/Segment.java:442 | after indexing, every citation container is the old one extended by exactly the entries its anchors contribute |
| Indexing.StoreDocument | source/net/yacy/search/index/Segment.java:338-460 | the record carries the URL hash, the URL and the voted language; it is stored unless the put fails and is returned either way; connections are kept; a running search is finalized exactly once; nothing is injected without a search |
| Indexing.WordEntriesComplete | source/net/yacy/search/index/Segment.java:401-412 | without faults, the word writes are exactly one posting per word, in iteration order, under that word's hash |
| Indexing.StoredPostings | source/net/yacy/search/index/Segment.java:384-439 | every term container after indexing is the old container extended by the batch entries filed under its key |
| Indexing.EachWordOnePosting | source/net/yacy/search/index/Segment.java:401-412 | on a connected index with writes on, each word whose append did not fail gains exactly one posting, carrying the document fields and the word's own properties; it assumes distinct word hashes, none equal to that of `yacyall` |
| JavaText.Utf16Length | source/net/yacy/search/index/Segment.java:380-385 | the URL and title lengths a posting carries count UTF-16 code units, as Java's `length()` does: between one and two per character, and exactly one per character when every character lies in the Basic Multilingual Plane |
| JavaText.Utf16LengthOfEmoji | source/net/yacy/search/index/Segment.java:385 | one emoji in a title is one character but two code units |
| Indexing.OneCatchallPosting | source/net/yacy/search/index/Segment.java:432-438 | whenever the posting block runs on a connected index, the catch-all container gains exactly one posting, even with storeToRWI off during a search |
| Indexing.NoWordPostingsWithoutStoreToRWI | source/net/yacy/search/index/Segment.java:384-412 | with storeToRWI off, no word container changes, and without a search the term index is untouched |
| Indexing.StoreTwiceDoubles | source/net/yacy/search/index/Segment.java:384-439 | indexing the same document twice appends its postings twice, because nothing deduplicates |
| Deletion.RemoveAllUrlReferencesAsWritten | source/net/yacy/search/index/Segment.java:474-507 | the routine as written: on a disconnected term index, a reloadable stored URL raises NullPointerException |
| Deletion.DisconnectedRemovalThrows | source/net/yacy/search/index/Segment.java:496 | a concrete segment whose term index is disconnected: the call throws and the record stays |
| Deletion.RemoveAllUrlReferences | source/net/yacy/search/index/Segment.java:474-507 | a missing hash, record or record URL changes nothing; no document removes only the record; a failed load or parse keeps everything; a successful re-parse removes the record and only it; citations are never touched |
| Deletion.CorrectedAgreesWhenConnected | source/net/yacy/search/index/Segment.java:496 | on a connected term index, the corrected routine equals the routine as written |
| Deletion.RemovalEffect | source/net/yacy/search/index/Segment.java:490-500 | after a successful re-parse, the record is gone and each re-parsed word's container loses exactly the URL's postings; the other containers stay; the count is the number of postings removed |
| Deletion.SetRemovalIndependent | source/net/yacy/search/index/Segment.java:462-464 | with the corrected single-hash routine, the set overload removes a record exactly when the record is listed and its own reload succeeds or finds no document; every other record stays unchanged |
| Deletion.SetAsWrittenAgrees | source/net/yacy/search/index/Segment.java:462-464 | the loop as written lets no exception escape while the term index is connected, and whenever none escapes it leaves what the corrected loop leaves |
| Deletion.SetAbortPrefix | source/net/yacy/search/index/Segment.java:462-464 | on a disconnected term index the loop as written stops at the first hash whose document re-parses, with the NullPointerException escaping; only the hashes before it have been processed |
| Deletion.SetAbortKeepsRest | source/net/yacy/search/index/Segment.java:462-464 | after that abort, the throwing hash and every later hash not listed earlier keep their full-text records unchanged |
| Deletion.StoreThenRemove | source/net/yacy/search/index/Segment.java:474-500 | indexing and then deleting, with the re-parse yielding the indexed words, restores each word container minus the URL's postings; containers of other terms besides the catch-all are as before indexing |
| Deletion.CatchallSurvivesRemoval | source/net/yacy/search/index/Segment.java:432-438 | deletion does not recompute the catch-all word, so the URL's catch-all posting outlives the URL |
| Charsets.WindowsCase | source/de/anomic/plasma/plasmaParser.java:359 | the name changes exactly when it starts with `WINDOWS`; then those seven letters become `windows` and every later character is kept, so the length is kept |
| Charsets.WindowsDash | source/de/anomic/plasma/plasmaParser.java:369-375 | the name changes exactly when `windows` is followed by a digit; then a dash is inserted at index 7 and every other character is kept |
| Charsets.IsoDash | source/de/anomic/plasma/plasmaParser.java:377-391 | only `ISO` names change, and exactly those with a digit at index 3 or 8; the result has neither, only dashes are inserted (at most two), and every other character is kept in order |
| Charsets.IsoDash3 | source/de/anomic/plasma/plasmaParser.java:379-384 | the name changes exactly when a digit follows `ISO`; then a dash is inserted at index 3 and the rest is kept |
| Charsets.IsoDash8 | source/de/anomic/plasma/plasmaParser.java:385-390 | the name changes exactly when index 8 holds a digit; then a dash is inserted there and the rest is kept |
| Charsets.IsoTypo | source/de/anomic/plasma/plasmaParser.java:393-397 | the name changes exactly when it starts with `ISO-8559`; then the first eight characters become `ISO-8859`, every later character is kept, and the length is kept |
| Charsets.CpToWindows | source/de/anomic/plasma/plasmaParser.java:399-407 | the name changes exactly when it fully matches `CP([_-])?125[0-8]`; the result is 12 characters: `windows`, then `-` or the original fill character, then the four digits |
| Charsets.PatchUpperShape | source/de/anomic/plasma/plasmaParser.java:356-407 | after trimming and upper-casing, the repair answers a fixed registry name or a canonical name (upper case, except a lower-case `windows` prefix), with no blanks at either end |
| Charsets.PatchCharsetEncoding | source/de/anomic/plasma/plasmaParser.java:346-410 | a missing name or one shorter than 3 characters gives ISO-8859-1; otherwise the trimmed, upper-cased name `u` is tested in the source's order: SHIFT gives Shift_JIS, BIG gives Big5, then on `u` after the `windows` case repair a GB2312 alias gives GB2312, a UTF-8 match gives UTF-8, US gives US-ASCII, KOI gives KOI8-R, and anything else gets the repair steps; every answer is a fixed name or a canonical name, with no blanks at either end |
| Charsets.PatchIdempotent | source/de/anomic/plasma/plasmaParser.java:346-410 | patching a patched name of at least three characters gives it back |
| Charsets.FixedNamesAreFixed | source/de/anomic/plasma/plasmaParser.java:349-367 | each fixed answer (ISO-8859-1, Shift_JIS, Big5, GB2312, UTF-8, US-ASCII, KOI8-R) patches to itself |
| Charsets.IsoDashExample | source/de/anomic/plasma/plasmaParser.java:377-391 | `iso88591` is repaired to `ISO-8859-1` |
| Charsets.CodePageExample | source/de/anomic/plasma/plasmaParser.java:399-407 | `cp1252` is repaired to `windows-1252` |
| Charsets.UnderscoreKeptExample | source/de/anomic/plasma/plasmaParser.java:362 | the discarded `replaceAll` leaves underscores in place: `CP_1252` becomes `windows_1252` |
| Charsets.ShortAfterTrimExample | source/de/anomic/plasma/plasmaParser.java:349-352 | the length test precedes trimming: `  ab` patches to `AB`, which itself patches to the default |
| MimeTypes.NormalizeMimeTypeAsWritten | source/de/anomic/plasma/plasmaParser.java:412-419 | the routine as written: a missing type defaults to application/octet-stream; the result is the prefix of the trimmed, lower-cased value that ends right before its first ';', or the whole value when it has none; it has no capitals |
| MimeTypes.CutAtParameters | source/de/anomic/plasma/plasmaParser.java:415-418 | a type without capitals or ';', followed by parameters that start with ';', normalizes to the type with any trailing blanks kept |
| MimeTypes.BlankBeforeParameterSurvives | source/de/anomic/plasma/plasmaParser.java:415-418 | `text/html ` followed by any parameter list such as `; charset=utf-8` normalizes to `text/html `, trailing blank included |
| MimeTypes.AsWrittenNotIdempotent | source/de/anomic/plasma/plasmaParser.java:415-418 | normalizing `text/html ` again gives `text/html`, so the routine as written is not a normal form |
| MimeTypes.NormalizeMimeType | source/de/anomic/plasma/plasmaParser.java:412-419 | the corrected result has no ';', no capitals and no blanks at either end, and occurs in the trimmed, lower-cased value |
| MimeTypes.NormalizeMimeTypeIdempotent | source/de/anomic/plasma/plasmaParser.java:412-419 | normalizing twice equals normalizing once |
| MimeTypes.NormalizeMimeTypeAgrees | source/de/anomic/plasma/plasmaParser.java:417-418 | when no blank precedes the ';', the corrected and as-written routines agree |
| MimeTypes.NormalizeMimeTypeBareType | source/de/anomic/plasma/plasmaParser.java:412-419 | a tidy type without capitals, followed by any blanks and then parameters, normalizes to the bare type: `text/html ; charset=utf-8` gives `text/html` |
| MimeTypes.HtmlMimeTypeContains | source/de/anomic/plasma/plasmaParser.java:261-266 | when no blank precedes the ';', the lookup answers as the written routine's lookup; a missing type is looked up as application/octet-stream |
| MimeTypes.FileExt | source/de/anomic/plasma/plasmaParser.java:279-293 | the extension has no '/' or '.' and ends the path; when non-empty, it follows a '.' |
| MimeTypes.FileExtEmpty | source/de/anomic/plasma/plasmaParser.java:279-293 | the extension is empty exactly when no '.' follows the last '/' or the path ends with '.' |
| Extensions.SplitJoin | source/de/anomic/plasma/plasmaParser.java:207 | splitting at every comma and joining again gives back the string |
| Extensions.JoinSplit | source/de/anomic/plasma/plasmaParser.java:207 | joining comma-free pieces and splitting again gives back the pieces |
| Extensions.JavaSplitRecovers | source/de/anomic/plasma/plasmaParser.java:207 | `split(",")` loses only trailing empty pieces |
| Extensions.ExtList | source/de/anomic/plasma/plasmaParser.java:202-211 | a missing or empty string gives no extensions; otherwise element i is piece i of `split`, lower-cased and trimmed; each element is comma-free, lower-case and trimmed |
| Extensions.ListedExt | source/de/anomic/plasma/plasmaParser.java:208 | a list element is the piece's normal form (trimmed, lower-cased; the two orders agree), with no capitals and no blanks at either end; a comma-free piece gives a comma-free element |
| Extensions.ListedExtExactly | source/de/anomic/plasma/plasmaParser.java:202-225 | a set built from a configured list holds normal forms only, and accepts an extension exactly when its normal form is that of some listed piece |
| Extensions.ExtContains | source/de/anomic/plasma/plasmaParser.java:310-315 | a missing extension is never contained; otherwise the answer is whether the trimmed, lower-cased extension is in the set |
| Extensions.ListedExtFound | source/de/anomic/plasma/plasmaParser.java:202-211 | a set built from a configured list accepts every piece of the list, whatever its case and surrounding blanks |
| Extensions.ExtContainsIgnoresCase | source/de/anomic/plasma/plasmaParser.java:310-336 | a lookup gives the same answer for any spelling that differs only in letter case and in blanks before and after |
| Extensions.MediaExtContains | source/de/anomic/plasma/plasmaParser.java:295-308 | true exactly when the normalised extension is a media extension that neither the HTML extensions nor a parser claims |
| Extensions.MediaIsNotHtml | source/de/anomic/plasma/plasmaParser.java:272-308 | a path whose normal-form extension counts as media never counts as an HTML file extension |
| Extensions.SupportedContent | source/de/anomic/plasma/plasmaParser.java:975-982 | an unknown mode raises IllegalArgument; a missing URL raises NullPointer; otherwise the answer is true exactly for IMAGE mode or when the mode's configuration accepts; a mode without configuration gives false |
| Extensions.SupportedContentLocal | source/de/anomic/plasma/plasmaParser.java:975-982 | the answer for a mode depends on that mode's configuration alone; IMAGE ignores every configuration and the MIME type |
| Extensions.SupportedHtmlContent | source/de/anomic/plasma/plasmaParser.java:268-270 | true only when the path's extension, as extracted, is an HTML extension; when no blank precedes the ';', true exactly when the written MIME-type lookup and the extension check both hold |
| UrlDerivation.RefLink | source/de/anomic/plasma/plasmaParser.java:802-817 | a reference exists exactly when `http://` or `/www.` occurs (any case) at index 7 or beyond; it is a suffix of the URL, or `http:/` followed by one |
| UrlDerivation.CutToLast | source/de/anomic/plasma/plasmaParser.java:802-805 | the source's cutting loop ends at the last occurrence of the pattern at index 7 or beyond |
| UrlDerivation.ExtractRefLink | source/de/anomic/plasma/plasmaParser.java:801-817 | the two loops of allReflinks compute the reference definition RefLink |
| UrlDerivation.RefLinkHasNoFurtherReference | source/de/anomic/plasma/plasmaParser.java:805-813 | a found reference starts with `http://` and holds no further `http://` at index 7 or beyond, or starts with `http://www.` and holds no further `/www.` |
| UrlDerivation.AllReflinks | source/de/anomic/plasma/plasmaParser.java:783-820 | the result holds exactly the references of well-formed links that make a URL; the remaining collection holds exactly the links without a reference; a link whose reference does not parse is removed anyway |
| UrlDerivation.Stubs | source/de/anomic/plasma/plasmaParser.java:840-850 | the stubs of a URL are exactly its prefixes, without one trailing slash, that end in '/' and are at least ten characters long |
| UrlDerivation.SubpathsOf | source/de/anomic/plasma/plasmaParser.java:840-850 | the source's right-to-left cutting loop yields exactly the stubs |
| UrlDerivation.StubsArePrefixes | source/de/anomic/plasma/plasmaParser.java:841-846 | each stub starts the URL, ends in '/', has at least ten characters, and is shorter than the URL |
| UrlDerivation.AllSubpaths | source/de/anomic/plasma/plasmaParser.java:822-863 | the result holds exactly the stubs of well-formed links that make a URL |

## Left out

- `Segment.urlSelector`, `URLCount`, `RWICount`, `RWIBufferCount`, `exists`, `close`, `getLocation` and the accessors are not modelled. They delegate to stores whose internals are not part of this model.
- The counter reset through `Switchboard` at the end of `clear` is not modelled. It touches global peer state outside the segment.
- Persistence of the index cells is not modelled: file layout, write buffers, cache sizes and flushing. An index is a map from hash to an ordered container. Connecting opens on a given `stored` value.
- The full-text schema (`yacy2solr`) is not modelled. The record keeps only the fields the core relies on.
- Logging, timing and `synchronized` are not modelled. Every operation is one atomic step.
- Case mapping covers ASCII letters only. Java's `toLowerCase` and `toUpperCase` are locale-aware and can change a string's length.
- URL parsing and normal forms (`yacyURL`, `DigestURI`) are parameters. Links arrive in normal form or as a rejected string. Whether a derived string makes a URL is the `parses` function. URL identity in the result maps is string identity.
- `storeDocument`: `ISO639.country` is a total parameter. The source's null return would raise an exception that the model does not represent.
- `storeDocument`: `document == null` in the title-length test is dead code. `document.dc_title()` has already been called by then.
- `storeDocument`: the ranking process of a search event is assumed present.
- `plasmaParser`'s reflection-based parser loading, `parseSource`, `parseHtml`, `main` and the `httpd.mime` lookups are not modelled. They are I/O around the helpers modelled here.
- `getMediaExtList` is not modelled. It only prints the set.
- `Extensions.InitExt` models every `init*Ext` method as building a set. Clearing and refilling shared state is outside a functional model.
- `supportedFileExtContains` and the per-mode parser configurations are parameters: `parsable` and `configs`.
- `Extensions.MediaIsNotHtml` requires an extension already in normal form. The HTML check compares the raw extension, so a raw extension such as `HTML` can count as both.
- HtmlMimeTypeContains: uses the corrected normalisation, as the rest of the model does. The source normalizes as written, so for a value with a blank before the ';' (`text/html ; charset=utf-8`) the source answers false where the model answers true. Both agree on every other value.
- SupportedHtmlContent: inherits the corrected MIME-type lookup of HtmlMimeTypeContains.
- RemoveAllUrlReferences: the `IOException` that `termIndex().remove` or `fulltext().remove` can raise inside the `try` is not modelled. The source catches it and returns 0, possibly after some postings were removed. The model treats both removals as always succeeding.
- SetRemovalIndependent: describes the set overload built on the corrected single-hash routine. The source's loop calls the routine as written, so on a disconnected term index the first re-parsed document's NullPointerException leaves the loop and the remaining hashes are not processed; SetAbortPrefix and SetAbortKeepsRest state that behaviour.
- PatchCharsetEncoding: lengths count characters, where Java's `length()` counts UTF-16 code units. The two differ only for characters outside the Basic Multilingual Plane: a two-character value such as `A` followed by an emoji has length 3 in Java and is patched there, but the model answers the default. The index tests of the repair steps (`WindowsDash`, `IsoDash3`, `IsoDash8`, `CpToWindows`) count the same way.
- ExtractRefLink: the start offset 7 of the `indexOf` search counts characters, not UTF-16 code units, so a URL with characters outside the Basic Multilingual Plane in its first seven units is searched from a different position.
- SubpathsOf: the `pos > 8` bound counts characters, not UTF-16 code units, so for a URL with characters outside the Basic Multilingual Plane in its first nine units the model can keep a different set of stubs than Java does.
- ConnectRWI: the `IOException` that opening an index cell can raise is not modelled; the index would stay disconnected. The same holds for ConnectCitation.
- EachWordOnePosting: assumes that no word hashes like `yacyall`. A document that contains the word `yacyall` gets two postings in that container, one for the word and one for the catch-all.
- JavaSplit: Java answers `[""]` for the empty string, where the model gives `[]`. `extString2extList` never splits an empty string.
- `Charsets.PatchIdempotent` requires an answer of at least three characters. A shorter answer, left by trimming a longer input, falls to the default on the second pass.

## Findings

| source | as written | input that shows it | evidently intended | confidence | as-written member | corrected member |
|---|---|---|---|---|---|---|
| source/net/yacy/search/index/Segment.java:496 | `termIndex().remove(...)` is called without the null check every other term-index access has | a stored URL whose document still loads, on a segment with a disconnected term index | remove nothing from the term index and still delete the full-text record | medium, not executed | Deletion.RemoveAllUrlReferencesAsWritten, Deletion.DisconnectedRemovalThrows, Deletion.SetAbortKeepsRest | Deletion.RemoveAllUrlReferences, Deletion.RemovalEffect, Deletion.SetRemovalIndependent |
| source/de/anomic/plasma/plasmaParser.java:415-418 | the value is trimmed before the cut at ';', so a blank before the ';' survives | `text/html ; charset=utf-8` normalizes to `text/html `, which no MIME-type set entry matches | the bare type `text/html` | medium, not executed | MimeTypes.NormalizeMimeTypeAsWritten, MimeTypes.BlankBeforeParameterSurvives | MimeTypes.NormalizeMimeType, MimeTypes.NormalizeMimeTypeIdempotent, MimeTypes.NormalizeMimeTypeBareType |

=== FILE: base.dfy ===
/** Small value wrappers shared by the whole model: Java's `null` becomes
    `None`, and an exception that escapes a call becomes `Failure`. */
module Base {

  datatype Option<+T> = None | Some(value: T)

  /** The exceptions the modelled code lets escape to its caller. */
  datatype Exception = NullPointer | IllegalArgument | SpaceExceeded | IOFailure

  datatype Result<+R> = Success(value: R) | Failure(error: Exception)
}

=== FILE: charsets.dfy ===
/** `patchCharsetEncoding` of `plasmaParser`: repairs a charset name found in
    a document into the name the character-set registry uses. The pattern
    tests of the source are written out as predicates over the characters. */
module Charsets {

  import opened Base
  import opened JavaText

  const DefaultCharset: string := "ISO-8859-1"

  // ---------------------------------------------------------------------
  // the source's pattern tests

  /** The names matched in full by `GB[_-]?2312([-_]80)?`. */
  const Gb2312Names: set<string> := {
    "GB2312", "GB_2312", "GB-2312",
    "GB2312-80", "GB_2312-80", "GB-2312-80",
    "GB2312_80", "GB_2312_80", "GB-2312_80"}

  /** The characters a regular-expression `.` does not match. */
  predicate IsLineTerminator(c: char) {
    c == '\n' || c == '\r' || c == '\U{85}' || c == '\U{2028}' || c == '\U{2029}'
  }

  /** `UTF[-_]?8` occurs at index `i`. */
  predicate Utf8At(s: string, i: int) {
    0 <= i && i + 4 <= |s| && s[i] == 'U' && s[i + 1] == 'T' && s[i + 2] == 'F'
    && (s[i + 3] == '8' || (i + 5 <= |s| && (s[i + 3] == '-' || s[i + 3] == '_') && s[i + 4] == '8'))
  }

  /** A full match of `.*UTF[-_]?8.*`: the pattern occurs and no line
      terminator stands anywhere. */
  predicate MatchesUtf8(s: string) {
    (exists i | 0 <= i < |s| :: Utf8At(s, i)) && forall i :: 0 <= i < |s| ==> !IsLineTerminator(s[i])
  }

  /** A full match of `CP([_-])?125[0-8]`. */
  predicate MatchesCp125x(s: string) {
    |s| >= 6 && s[..2] == "CP"
    && var t := if s[2] == '_' || s[2] == '-' then s[3..] else s[2..];
       |t| == 4 && t[..3] == "125" && '0' <= t[3] <= '8'
  }

  lemma GbNamesStartWithG(s: string)
    requires s in Gb2312Names
    ensures |s| >= 6 && s[0] == 'G'
  {
  }

  /** A name after case repair: upper case throughout, except that it may
      start with a lower-case `windows`. */
  predicate Canonical(s: string) {
    (NoLower(s) && !StartsWith(s, "WINDOWS"))
    || (StartsWith(s, "windows") && NoLower(s[7..]))
  }

  /** A join of two non-empty strings is tidy when its outer ends are. */
  lemma TidyJoin(a: string, b: string)
    requires a != [] && b != [] && !IsBlank(a[0]) && !IsBlank(b[|b| - 1])
    ensures Tidy(a + b)
  {
    assert (a + b)[0] == a[0] && (a + b)[|a + b| - 1] == b[|b| - 1];
  }

  /** A canonical name starting with an upper-case letter has no
      lower-case letter at all. */
  lemma CanonicalUpper(s: string)
    requires Canonical(s) && s != [] && !IsLower(s[0])
    ensures NoLower(s)
  {
  }

  // ---------------------------------------------------------------------
  // the repair steps, in the source's order

  /** `WINDOWS…` becomes `windows…`: only those seven letters change. */
  function WindowsCase(e: string): (r: string)
    ensures NoLower(e) ==> Canonical(r)
    ensures Tidy(e) && e != [] ==> Tidy(r)
    ensures |r| == |e|
    ensures r != e <==> StartsWith(e, "WINDOWS")
    ensures r != e ==> r[..7] == "windows" && r[7..] == e[7..]
  {
    if StartsWith(e, "WINDOWS") then "windows" + e[7..] else e
  }

  /** `windows<digit>…` becomes `windows-<digit>…`. */
  function WindowsDash(e: string): (r: string)
    ensures Canonical(e) ==> Canonical(r)
    ensures Tidy(e) ==> Tidy(r)
    ensures r == e || (StartsWith(e, "windows") && r == "windows-" + e[7..])
    ensures r != e <==> StartsWith(e, "windows") && |e| > 7 && IsDigit(e[7])
    ensures r != e ==> DashAt(e, r, 7)
  {
    if StartsWith(e, "windows") && |e| > 7 && IsDigit(e[7]) then
      var r := "windows-" + e[7..];
      assert r[7..] == "-" + e[7..];
      r
    else e
  }

  /** `r` is `e` with a dash inserted at index `k`. */
  predicate DashAt(e: string, r: string, k: nat) {
    k <= |e| && |r| == |e| + 1 && r[..k] == e[..k] && r[k] == '-' && r[k + 1..] == e[k..]
  }

  /** The characters of a name other than its dashes, in order. */
  function Undashed(s: string): (r: string)
    ensures |r| <= |s|
    ensures '-' !in r
  {
    if s == [] then []
    else (if s[0] == '-' then [] else [s[0]]) + Undashed(s[1..])
  }

  lemma {:induction false} UndashedJoin(a: string, b: string)
    ensures Undashed(a + b) == Undashed(a) + Undashed(b)
    decreases |a|
  {
    if a != [] {
      assert (a + b)[1..] == a[1..] + b;
      UndashedJoin(a[1..], b);
    } else {
      assert a + b == b;
    }
  }

  /** Inserting a dash keeps every other character in place. */
  lemma DashAtUndashed(e: string, r: string, k: nat)
    requires DashAt(e, r, k)
    ensures Undashed(r) == Undashed(e)
  {
    assert r == r[..k] + ([r[k]] + r[k + 1..]);
    assert e == e[..k] + e[k..];
    UndashedJoin(r[..k], [r[k]] + r[k + 1..]);
    UndashedJoin([r[k]], r[k + 1..]);
    UndashedJoin(e[..k], e[k..]);
  }

  /** The two missing dashes of an `ISO` name: after `ISO` before a digit,
      and before a digit at index 8. Only dashes are inserted, at most two,
      and a name is changed exactly when it is an unsettled `ISO` name. */
  function IsoDash(e: string): (r: string)
    ensures Canonical(e) ==> Canonical(r)
    ensures Tidy(e) ==> Tidy(r)
    ensures StartsWith(e, "ISO") ==> IsoSettled(r)
    ensures !StartsWith(e, "ISO") ==> r == e
    ensures r == e <==> !StartsWith(e, "ISO") || IsoSettled(e)
    ensures Undashed(r) == Undashed(e) && |e| <= |r| <= |e| + 2
  {
    if !StartsWith(e, "ISO") then e
    else
      IsoDashInserts(e);
      IsoDash8(IsoDash3(e))
  }

  /** The two dash insertions together: dashes only, and none on a settled
      name. */
  lemma IsoDashInserts(e: string)
    requires StartsWith(e, "ISO")
    ensures var r := IsoDash8(IsoDash3(e));
            Undashed(r) == Undashed(e) && |e| <= |r| <= |e| + 2 && (r == e <==> IsoSettled(e))
  {
    var a := IsoDash3(e);
    if a != e {
      DashAtUndashed(e, a, 3);
    }
    var r := IsoDash8(a);
    if r != a {
      DashAtUndashed(a, r, 8);
    }
  }

  /** `ISO<digit>…` becomes `ISO-<digit>…`. */
  function IsoDash3(e: string): (r: string)
    requires StartsWith(e, "ISO")
    ensures StartsWith(r, "ISO") && (|r| <= 3 || !IsDigit(r[3]))
    ensures Canonical(e) ==> Canonical(r)
    ensures Tidy(e) ==> Tidy(r)
    ensures r != e <==> |e| > 3 && IsDigit(e[3])
    ensures r != e ==> DashAt(e, r, 3)
  {
    if |e| > 3 && IsDigit(e[3]) then
      var r := "ISO-" + e[3..];
      assert r[..3] == "ISO";
      assert Tidy(e) ==> Tidy(r) by {
        if Tidy(e) {
          TidyJoin("ISO-", e[3..]);
        }
      }
      r
    else e
  }

  /** A digit at index 8 of an `ISO` name gets a dash before it. */
  function IsoDash8(a: string): (r: string)
    requires StartsWith(a, "ISO")
    ensures StartsWith(r, "ISO")
    ensures (|a| <= 3 || !IsDigit(a[3])) ==> IsoSettled(r)
    ensures Canonical(a) ==> Canonical(r)
    ensures Tidy(a) ==> Tidy(r)
    ensures r != a <==> |a| > 8 && IsDigit(a[8])
    ensures r != a ==> DashAt(a, r, 8)
  {
    if |a| > 8 && IsDigit(a[8]) then
      var r := a[..8] + ("-" + a[8..]);
      assert r[..3] == a[..8][..3] == "ISO";
      assert r[3] == a[3] && r[8] == '-';
      assert Tidy(a) ==> Tidy(r) by {
        if Tidy(a) {
          TidyJoin(a[..8], "-" + a[8..]);
        }
      }
      assert Canonical(a) ==> Canonical(r) by {
        if Canonical(a) {
          assert a[0] == 'I';
          CanonicalUpper(a);
        }
      }
      r
    else a
  }

  /** An `ISO` name with no digit right after `ISO` or at index 8. */
  predicate IsoSettled(s: string) {
    StartsWith(s, "ISO") && (|s| <= 3 || !IsDigit(s[3])) && (|s| <= 8 || !IsDigit(s[8]))
  }

  /** The popular typo `ISO-8559` becomes `ISO-8859`; the rest is kept. */
  function IsoTypo(e: string): (r: string)
    ensures Canonical(e) ==> Canonical(r)
    ensures Tidy(e) ==> Tidy(r)
    ensures IsoSettled(e) ==> IsoSettled(r)
    ensures !StartsWith(r, "ISO-8559")
    ensures StartsWith(e, "ISO") <==> StartsWith(r, "ISO")
    ensures !StartsWith(e, "ISO") ==> r == e
    ensures |r| == |e|
    ensures r != e <==> StartsWith(e, "ISO-8559")
    ensures r != e ==> r[..8] == "ISO-8859" && r[8..] == e[8..]
  {
    if StartsWith(e, "ISO-8559") then
      var r := "ISO-8859" + e[8..];
      assert r[..3] == "ISO" && r[3] == '-' && r[..8] == "ISO-8859";
      r
    else e
  }

  /** `CP125x` becomes `windows-125x`; with a fill character, `CP_125x`
      becomes `windows_125x` and `CP-125x` becomes `windows-125x`. The four
      digits are kept. */
  function CpToWindows(e: string): (r: string)
    ensures Canonical(e) ==> Canonical(r)
    ensures Tidy(e) ==> Tidy(r)
    ensures r == e || (MatchesCp125x(e) && StartsWith(r, "windows") && |r| > 7 && !IsDigit(r[7]))
    ensures r != e <==> MatchesCp125x(e)
    ensures MatchesCp125x(e) ==>
              |r| == 12 && r[..7] == "windows" && r[8..] == e[|e| - 4..]
              && r[7] == (if IsDigit(e[2]) then '-' else e[2])
  {
    if MatchesCp125x(e) then
      var tail := if IsDigit(e[2]) then "-" + e[2..] else e[2..];
      var r := "windows" + tail;
      assert r[..7] == "windows" && r[7..] == tail;
      assert |r| == 12 && r[8..] == e[|e| - 4..] && r[7] == (if IsDigit(e[2]) then '-' else e[2]) by {
        CpParts(e);
        assert r[8..] == tail[1..];
      }
      assert tail[|tail| - 1] == e[|e| - 1];
      assert !IsDigit(r[7]) by {
        assert r[7] == tail[0];
      }
      assert Tidy(e) ==> Tidy(r) by {
        if Tidy(e) {
          TidyJoin("windows", tail);
        }
      }
      assert Canonical(e) ==> Canonical(r) by {
        if Canonical(e) {
          assert e[0] == 'C';
          CanonicalUpper(e);
        }
      }
      r
    else e
  }

  /** A `CP125x` name is `CP` and four digits, or `CP`, a fill character and
      four digits. */
  lemma CpParts(e: string)
    requires MatchesCp125x(e)
    ensures IsDigit(e[2]) ==> |e| == 6 && e[2..] == e[|e| - 4..]
    ensures !IsDigit(e[2]) ==> |e| == 7 && e[3..] == e[|e| - 4..]
  {
    if IsDigit(e[2]) {
      assert e[2] != '_' && e[2] != '-';
    }
  }

  /** The repairs applied once no fixed name has been chosen. */
  function Repair(e: string): string {
    CpToWindows(IsoTypo(IsoDash(WindowsDash(e))))
  }

  /** Everything after trimming and upper-casing. */
  function PatchUpper(e: string): string {
    if StartsWith(e, "SHIFT") then "Shift_JIS"
    else if StartsWith(e, "BIG") then "Big5"
    else PatchCased(WindowsCase(e))
  }

  /** Everything after the case repair of `windows`. */
  function PatchCased(w: string): string {
    if w in Gb2312Names then "GB2312"
    else if MatchesUtf8(w) then "UTF-8"
    else if StartsWith(w, "US") then "US-ASCII"
    else if StartsWith(w, "KOI") then "KOI8-R"
    else Repair(w)
  }

  /** The result of a repair keeps the case shape and the trimmed ends. */
  lemma PatchUpperShape(e: string)
    requires NoLower(e) && Tidy(e)
    ensures PatchUpper(e) in FixedNames || Canonical(PatchUpper(e))
    ensures Tidy(PatchUpper(e))
  {
    if !StartsWith(e, "SHIFT") && !StartsWith(e, "BIG") {
      CasedShape(WindowsCase(e));
    }
  }

  /** The tests after the case repair keep the case shape and the trimmed
      ends. */
  lemma CasedShape(w: string)
    requires Canonical(w) && Tidy(w)
    ensures PatchCased(w) in FixedNames || Canonical(PatchCased(w))
    ensures Tidy(PatchCased(w))
  {
    if !(w in Gb2312Names || MatchesUtf8(w) || StartsWith(w, "US") || StartsWith(w, "KOI")) {
      RepairShape(w);
    }
  }

  /** The repairs keep the case shape and the trimmed ends. */
  lemma RepairShape(w: string)
    requires Canonical(w) && Tidy(w)
    ensures Canonical(Repair(w)) && Tidy(Repair(w))
  {
    var a := WindowsDash(w);
    var b := IsoDash(a);
    var c := IsoTypo(b);
  }

  /** The fixed names the repair may answer with. */
  const FixedNames: set<string> := {"Shift_JIS", "Big5", "GB2312", "UTF-8", "US-ASCII", "KOI8-R"}

  /** `patchCharsetEncoding`. The length test comes before trimming; then
      the tests run on the trimmed, upper-cased name `u`, and from the
      GB2312 test on, on `u` after the case repair of `windows`. The first
      test that holds decides. */
  function PatchCharsetEncoding(encoding: Option<string>): (r: string)
    ensures encoding.None? || |encoding.value| < 3 ==> r == DefaultCharset
    ensures r == DefaultCharset || r in FixedNames || Canonical(r)
    ensures Tidy(r)
    ensures encoding.Some? && |encoding.value| >= 3 ==>
              var u := Upper(Trim(encoding.value));
              var w := WindowsCase(u);
              if StartsWith(u, "SHIFT") then r == "Shift_JIS"
              else if StartsWith(u, "BIG") then r == "Big5"
              else if w in Gb2312Names then r == "GB2312"
              else if MatchesUtf8(w) then r == "UTF-8"
              else if StartsWith(w, "US") then r == "US-ASCII"
              else if StartsWith(w, "KOI") then r == "KOI8-R"
              else r == Repair(w)
  {
    if encoding.None? || |encoding.value| < 3 then DefaultCharset
    else
      var e := Upper(Trim(encoding.value));
      assert Tidy(e) by {
        assert BlankAlike(Trim(encoding.value), e);
      }
      UpperNoLower(Trim(encoding.value));
      PatchUpperShape(e);
      PatchUpper(e)
  }

  // ---------------------------------------------------------------------
  // idempotence

  /** A name without `U` or without `F` holds no `UTF8`. */
  lemma NoUtf(s: string)
    requires 'U' !in s || 'F' !in s
    ensures !MatchesUtf8(s)
  {
  }

  /** Replacing a prefix `q` by a prefix `p` without `U` creates no `UTF8`
      and removes no line terminator when `q` has none. */
  lemma UtfPrefixSwap(p: string, q: string, t: string)
    requires 'U' !in p
    requires forall c | c in q :: !IsLineTerminator(c)
    ensures MatchesUtf8(p + t) ==> MatchesUtf8(q + t)
  {
    if MatchesUtf8(p + t) {
      var s := p + t;
      var i :| 0 <= i < |s| && Utf8At(s, i);
      var j := i - |p| + |q|;
      forall m | i <= m < |s| ensures (q + t)[m - i + j] == s[m] {
      }
      assert Utf8At(q + t, j);
      forall k | 0 <= k < |q + t| ensures !IsLineTerminator((q + t)[k]) {
        if k >= |q| {
          assert (q + t)[k] == s[k - |q| + |p|];
        } else {
          assert (q + t)[k] in q;
        }
      }
    }
  }

  /** Inserting `-` before a digit creates no `UTF8`: a `UTF-8` made by the
      insertion was a `UTF8` already. */
  lemma UtfInsertDash(a: string, k: nat)
    requires k < |a| && IsDigit(a[k])
    ensures MatchesUtf8(a[..k] + ("-" + a[k..])) ==> MatchesUtf8(a)
  {
    var r := a[..k] + ("-" + a[k..]);
    if MatchesUtf8(r) {
      assert forall j :: 0 <= j < k ==> r[j] == a[j];
      assert forall j :: k < j < |r| ==> r[j] == a[j - 1];
      var i :| 0 <= i < |r| && Utf8At(r, i);
      if i > k {
        assert Utf8At(a, i - 1);
      } else {
        assert Utf8At(a, i);
      }
      forall j | 0 <= j < |a| ensures !IsLineTerminator(a[j]) {
        if j < k {
          assert a[j] == r[j];
        } else {
          assert a[j] == r[j + 1];
        }
      }
    }
  }

  lemma WindowsDashUtf(e: string)
    ensures MatchesUtf8(WindowsDash(e)) ==> MatchesUtf8(e)
  {
    if WindowsDash(e) != e {
      UtfPrefixSwap("windows-", "windows", e[7..]);
      assert e == "windows" + e[7..];
    }
  }

  lemma IsoDashUtf(e: string)
    ensures MatchesUtf8(IsoDash(e)) ==> MatchesUtf8(e)
  {
    if StartsWith(e, "ISO") {
      IsoDash3Utf(e);
      IsoDash8Utf(IsoDash3(e));
    }
  }

  lemma IsoDash3Utf(e: string)
    requires StartsWith(e, "ISO")
    ensures MatchesUtf8(IsoDash3(e)) ==> MatchesUtf8(e)
  {
    if IsoDash3(e) != e {
      UtfPrefixSwap("ISO-", "ISO", e[3..]);
      assert e == "ISO" + e[3..];
    }
  }

  lemma IsoDash8Utf(a: string)
    requires StartsWith(a, "ISO")
    ensures MatchesUtf8(IsoDash8(a)) ==> MatchesUtf8(a)
  {
    if |a| > 8 && IsDigit(a[8]) {
      UtfInsertDash(a, 8);
    }
  }

  lemma IsoTypoUtf(e: string)
    ensures MatchesUtf8(IsoTypo(e)) ==> MatchesUtf8(e)
  {
    if StartsWith(e, "ISO-8559") {
      UtfPrefixSwap("ISO-8859", "ISO-8559", e[8..]);
      assert e == "ISO-8559" + e[8..];
    }
  }

  lemma CpToWindowsUtf(e: string)
    ensures MatchesUtf8(CpToWindows(e)) ==> MatchesUtf8(e)
  {
    if MatchesCp125x(e) {
      assert e == "CP" + e[2..];
      UtfPrefixSwap("windows-", "CP", e[2..]);
      UtfPrefixSwap("windows", "CP", e[2..]);
    }
  }

  /** The repairs never create a `UTF8` the name did not hold. */
  lemma RepairUtf(e: string)
    ensures MatchesUtf8(Repair(e)) ==> MatchesUtf8(e)
  {
    WindowsDashUtf(e);
    IsoDashUtf(WindowsDash(e));
    IsoTypoUtf(IsoDash(WindowsDash(e)));
    CpToWindowsUtf(IsoTypo(IsoDash(WindowsDash(e))));
  }

  /** What a repair leaves behind: the name untouched, a `windows` name
      without a digit right after `windows`, or a settled `ISO` name. */
  predicate Repaired(w: string, r: string) {
    (r == w && !StartsWith(w, "windows") && !StartsWith(w, "ISO") && !MatchesCp125x(w))
    || (StartsWith(r, "windows") && (|r| <= 7 || !IsDigit(r[7])))
    || (IsoSettled(r) && !StartsWith(r, "ISO-8559"))
  }

  lemma RepairForms(w: string)
    ensures Repaired(w, Repair(w))
  {
    var a := WindowsDash(w);
    var b := IsoDash(a);
    var c := IsoTypo(b);
    if StartsWith(w, "windows") {
      assert a[..7] == "windows";
    } else if StartsWith(w, "ISO") {
      assert a == w;
    }
  }

  /** A repaired name is left alone by a second repair. */
  lemma RepairFixed(w: string, r: string)
    requires Repaired(w, r)
    ensures Repair(r) == r
  {
    if IsoSettled(r) && !StartsWith(r, "ISO-8559") {
      RepairKeepsIso(r);
    } else if StartsWith(r, "windows") {
      RepairKeepsWindows(r);
    } else {
      RepairKeepsPlain(r);
    }
  }

  /** A name no repair step is aimed at passes every step unchanged. */
  lemma RepairKeepsPlain(r: string)
    requires !StartsWith(r, "windows") && !StartsWith(r, "ISO") && !MatchesCp125x(r)
    ensures Repair(r) == r
  {
    assert WindowsDash(r) == r;
    assert IsoDash(r) == r;
    assert StartsWith(r, "ISO-8559") ==> r[..8][..3] == r[..3];
    assert IsoTypo(r) == r;
  }

  /** A `windows` name without a digit right after `windows` is kept. */
  lemma RepairKeepsWindows(r: string)
    requires StartsWith(r, "windows") && (|r| <= 7 || !IsDigit(r[7]))
    ensures Repair(r) == r
  {
    assert r[0] == r[..7][0] == 'w';
    assert WindowsDash(r) == r;
    NotPrefixed(r, "ISO");
    assert IsoDash(r) == r;
    NotPrefixed(r, "ISO-8559");
    assert IsoTypo(r) == r;
    NotPrefixed(r, "CP");
  }

  /** A settled `ISO` name without the typo is kept. */
  lemma RepairKeepsIso(r: string)
    requires IsoSettled(r) && !StartsWith(r, "ISO-8559")
    ensures Repair(r) == r
  {
    assert r[0] == r[..3][0] == 'I';
    NotPrefixed(r, "windows");
    assert WindowsDash(r) == r;
    assert IsoDash(r) == r;
    assert IsoTypo(r) == r;
    NotPrefixed(r, "CP");
  }

  /** A canonical name comes back from upper-casing and case repair. */
  lemma WindowsCaseUpper(r: string)
    requires Canonical(r)
    ensures WindowsCase(Upper(r)) == r
    ensures StartsWith(Upper(r), "SHIFT") ==> StartsWith(r, "SHIFT")
    ensures StartsWith(Upper(r), "BIG") ==> StartsWith(r, "BIG")
  {
    if StartsWith(r, "windows") {
      WindowsCaseLower(r);
    } else {
      UpperNoLowerId(r);
    }
  }

  /** A lower-case `windows` name is upper-cased to a `WINDOWS` name, which
      the case repair turns back. */
  lemma WindowsCaseLower(r: string)
    requires StartsWith(r, "windows") && NoLower(r[7..])
    ensures WindowsCase(Upper(r)) == r
    ensures !StartsWith(Upper(r), "SHIFT") && !StartsWith(Upper(r), "BIG")
  {
    WindowsUpper(r);
    WindowsCaseOf(Upper(r), r[7..]);
    assert r == "windows" + r[7..];
  }

  /** An upper-case `WINDOWS` name is lower-cased at its front only. */
  lemma WindowsCaseOf(u: string, t: string)
    requires u == "WINDOWS" + t
    ensures WindowsCase(u) == "windows" + t
    ensures !StartsWith(u, "SHIFT") && !StartsWith(u, "BIG")
  {
    assert u[..7] == "WINDOWS" && u[7..] == t;
    assert u[..3][0] == 'W' && u[..5][0] == 'W';
  }

  lemma WindowsUpper(r: string)
    requires StartsWith(r, "windows") && NoLower(r[7..])
    ensures Upper(r) == "WINDOWS" + r[7..]
  {
    var u := Upper(r);
    UpperSlice(r, 0, 7);
    UpperSlice(r, 7, |r| - 7);
    UpperNoLowerId(r[7..]);
    assert r[0..7] == "windows" && r[7..|r|] == r[7..];
    assert Upper("windows") == "WINDOWS";
    assert u == u[0..7] + u[7..|r|];
  }

  /** A name starting with `w` or `I` meets none of the fixed-name
      tests. */
  lemma NoFixedPrefix(r: string)
    requires r != [] && (r[0] == 'w' || r[0] == 'I')
    ensures !StartsWith(r, "SHIFT") && !StartsWith(r, "BIG")
    ensures r !in Gb2312Names && !StartsWith(r, "US") && !StartsWith(r, "KOI")
  {
    NotGb(r);
    NotPrefixed(r, "SHIFT");
    NotPrefixed(r, "BIG");
    NotPrefixed(r, "US");
    NotPrefixed(r, "KOI");
  }

  /** Repairing a name the source did not map to a fixed name, once more,
      changes nothing. */
  lemma RepairStable(w: string)
    requires Canonical(w) && Tidy(w)
    requires !StartsWith(w, "SHIFT") && !StartsWith(w, "BIG")
    requires w !in Gb2312Names && !MatchesUtf8(w) && !StartsWith(w, "US") && !StartsWith(w, "KOI")
    ensures PatchUpper(Upper(Repair(w))) == Repair(w)
  {
    var r := Repair(w);
    RepairForms(w);
    RepairFixed(w, r);
    RepairUtf(w);
    assert Canonical(r);
    WindowsCaseUpper(r);
    if r != w {
      if StartsWith(r, "windows") {
        assert r[..7][0] == 'w';
      } else {
        assert IsoSettled(r);
        assert r[..3][0] == 'I';
      }
      NoFixedPrefix(r);
    }
    assert !MatchesUtf8(r);
  }

  /** Each answer is a fixed point: patching an already patched name of
      three characters or more gives it back. (A shorter one, left by
      trimming a longer input, falls to the default on the second pass.) */
  lemma {:induction false} PatchIdempotent(encoding: Option<string>)
    requires |PatchCharsetEncoding(encoding)| >= 3
    ensures PatchCharsetEncoding(Some(PatchCharsetEncoding(encoding))) == PatchCharsetEncoding(encoding)
  {
    var r := PatchCharsetEncoding(encoding);
    if r in FixedNames || r == DefaultCharset {
      FixedNamesAreFixed(r);
    } else {
      var e := Upper(Trim(encoding.value));
      var w := WindowsCase(e);
      assert NoLower(e) && Tidy(e) by {
        UpperNoLower(Trim(encoding.value));
        assert BlankAlike(Trim(encoding.value), e);
      }
      assert !StartsWith(w, "SHIFT") && !StartsWith(w, "BIG") by {
        if StartsWith(e, "WINDOWS") {
          assert w[..7][0] == 'w';
          NoFixedPrefix(w);
        }
      }
      RepairStable(w);
      PatchTidy(r);
    }
  }

  // ---------------------------------------------------------------------
  // the branches of the repair

  /** On a name of three characters or more without blanks at either end,
      patching is the repair of its upper-cased form. */
  lemma PatchTidy(n: string)
    requires |n| >= 3 && Tidy(n)
    ensures PatchCharsetEncoding(Some(n)) == PatchUpper(Upper(n))
  {
    TrimTidy(n);
  }

  lemma PatchShift(e: string)
    requires StartsWith(e, "SHIFT")
    ensures PatchUpper(e) == "Shift_JIS"
  {
  }

  lemma PatchBig(e: string)
    requires !StartsWith(e, "SHIFT") && StartsWith(e, "BIG")
    ensures PatchUpper(e) == "Big5"
  {
  }

  /** An upper-case name that starts with neither `S`, `B` nor `W` goes
      straight to the tests after the case repair. */
  lemma PatchPlain(n: string)
    requires |n| >= 3 && Tidy(n) && NoLower(n)
    requires n[0] != 'S' && n[0] != 'B' && n[0] != 'W'
    ensures PatchCharsetEncoding(Some(n)) == PatchCased(n)
  {
    PatchTidy(n);
    UpperNoLowerId(n);
    UpperToCased(n);
  }

  /** A name that starts with neither `S`, `B` nor `W` meets none of the
      tests before the case-repaired ones, and the case repair keeps it. */
  lemma UpperToCased(e: string)
    requires e != [] && e[0] != 'S' && e[0] != 'B' && e[0] != 'W'
    ensures PatchUpper(e) == PatchCased(e)
  {
    NotPrefixed(e, "SHIFT");
    NotPrefixed(e, "BIG");
    NotPrefixed(e, "WINDOWS");
  }

  /** A string whose first character differs from that of `p` does not
      start with `p`. */
  lemma NotPrefixed(e: string, p: string)
    requires e != [] && p != [] && e[0] != p[0]
    ensures !StartsWith(e, p)
  {
    assert |p| <= |e| ==> e[..|p|][0] == e[0];
  }

  /** A name without `UTF8` that starts with neither `G`, `U` nor `K` is
      left to the repairs. */
  lemma CasedToRepair(w: string)
    requires w != [] && w[0] != 'G' && w[0] != 'U' && w[0] != 'K' && !MatchesUtf8(w)
    ensures PatchCased(w) == Repair(w)
  {
    NotGb(w);
    NotPrefixed(w, "US");
    NotPrefixed(w, "KOI");
  }

  /** A name that is neither a GB2312 alias nor a UTF-8 name, and starts
      with neither `US` nor `KOI`, is left to the repairs. */
  lemma CasedRepair(w: string)
    requires w !in Gb2312Names && !MatchesUtf8(w) && !StartsWith(w, "US") && !StartsWith(w, "KOI")
    ensures PatchCased(w) == Repair(w)
  {
  }

  lemma NotGb(w: string)
    requires w != [] && w[0] != 'G'
    ensures w !in Gb2312Names
  {
    if w in Gb2312Names {
      GbNamesStartWithG(w);
    }
  }

  // ---------------------------------------------------------------------
  // the fixed names are fixed points

  /** Every name the repair answers with outright, the default included,
      patches to itself. */
  lemma FixedNamesAreFixed(n: string)
    requires n in FixedNames || n == DefaultCharset
    ensures PatchCharsetEncoding(Some(n)) == n
  {
    if n == DefaultCharset {
      DefaultIsFixed(n);
    } else if n == "Shift_JIS" {
      ShiftIsFixed(n);
    } else if n == "Big5" {
      BigIsFixed(n);
    } else if n == "GB2312" {
      GbIsFixed(n);
    } else if n == "UTF-8" {
      UtfIsFixed(n);
    } else if n == "US-ASCII" {
      UsIsFixed(n);
    } else {
      KoiIsFixed(n);
    }
  }

  lemma DefaultIsFixed(n: string)
    requires n == DefaultCharset
    ensures PatchCharsetEncoding(Some(n)) == n
  {
    assert 'U' !in n;
    NoUtf(n);
    NotGb(n);
    assert n[..2][0] == 'I' && n[..3][0] == 'I';
    PatchPlain(n);
    CasedRepair(n);
    DefaultRepaired(n);
    RepairFixed(n, n);
  }

  lemma DefaultRepaired(n: string)
    requires n == DefaultCharset
    ensures Repaired(n, n)
  {
    assert n[..3] == "ISO" && n[3] == '-' && n[8] == '-';
    assert n[5] == '8';
  }

  lemma ShiftIsFixed(n: string)
    requires n == "Shift_JIS"
    ensures PatchCharsetEncoding(Some(n)) == n
  {
    PatchTidy(n);
    ShiftUpper(n);
    PatchShift(Upper(n));
  }

  lemma ShiftUpper(n: string)
    requires n == "Shift_JIS"
    ensures StartsWith(Upper(n), "SHIFT")
  {
    assert Upper(n)[..5] == "SHIFT";
  }

  lemma BigIsFixed(n: string)
    requires n == "Big5"
    ensures PatchCharsetEncoding(Some(n)) == n
  {
    PatchTidy(n);
    BigUpper(n);
    PatchBig(Upper(n));
  }

  lemma BigUpper(n: string)
    requires n == "Big5"
    ensures !StartsWith(Upper(n), "SHIFT") && StartsWith(Upper(n), "BIG")
  {
    assert Upper(n)[..3] == "BIG";
  }

  lemma GbIsFixed(n: string)
    requires n == "GB2312"
    ensures PatchCharsetEncoding(Some(n)) == n
  {
    PatchPlain(n);
  }

  lemma UtfIsFixed(n: string)
    requires n == "UTF-8"
    ensures PatchCharsetEncoding(Some(n)) == n
  {
    NotGb(n);
    assert Utf8At(n, 0);
    PatchPlain(n);
  }

  lemma UsIsFixed(n: string)
    requires n == "US-ASCII"
    ensures PatchCharsetEncoding(Some(n)) == n
  {
    NotGb(n);
    assert 'F' !in n;
    NoUtf(n);
    assert n[..2] == "US";
    PatchPlain(n);
  }

  lemma KoiIsFixed(n: string)
    requires n == "KOI8-R"
    ensures PatchCharsetEncoding(Some(n)) == n
  {
    NotGb(n);
    assert 'U' !in n;
    NoUtf(n);
    assert n[..2][0] == 'K' && n[..3] == "KOI";
    PatchPlain(n);
  }

  // ---------------------------------------------------------------------
  // worked examples

  /** Both missing dashes of an `ISO` name are restored. */
  lemma IsoDashExample(n: string)
    requires n == "iso88591"
    ensures PatchCharsetEncoding(Some(n)) == "ISO-8859-1"
  {
    PatchTidy(n);
    IsoUpper(n);
    IsoDashSteps(Upper(n));
  }

  lemma IsoUpper(n: string)
    requires n == "iso88591"
    ensures Upper(n) == "ISO88591"
  {
  }

  lemma IsoDashSteps(e: string)
    requires e == "ISO88591"
    ensures PatchUpper(e) == "ISO-8859-1"
  {
    assert 'U' !in e;
    NoUtf(e);
    UpperToCased(e);
    CasedToRepair(e);
    IsoRepair(e);
  }

  lemma IsoRepair(e: string)
    requires e == "ISO88591"
    ensures Repair(e) == "ISO-8859-1"
  {
    var x := "ISO-8859-1";
    NotPrefixed(e, "windows");
    IsoDashExampleSteps(e);
    IsoTypoExample(x);
    RepairOf(e, e, x, x);
  }

  /** The repair composed from the results of its steps. */
  lemma RepairOf(e: string, a: string, b: string, c: string)
    requires WindowsDash(e) == a && IsoDash(a) == b && IsoTypo(b) == c
    ensures Repair(e) == CpToWindows(c)
    ensures !MatchesCp125x(c) ==> Repair(e) == c
  {
  }

  lemma IsoTypoExample(x: string)
    requires x == "ISO-8859-1"
    ensures IsoTypo(x) == x && !MatchesCp125x(x)
  {
    assert x[5] == '8';
    assert x[..8][5] == x[5];
    assert x[..2][0] == 'I';
  }

  lemma IsoDashExampleSteps(e: string)
    requires e == "ISO88591"
    ensures IsoDash(e) == "ISO-8859-1"
  {
    assert e[..3] == "ISO";
    assert "ISO-" + e[3..] == "ISO-88591";
    assert "ISO-88591"[..8] + ("-" + "ISO-88591"[8..]) == "ISO-8859-1";
  }

  /** A `CP125x` name becomes the matching `windows-125x` name. */
  lemma CodePageExample(n: string)
    requires n == "cp1252"
    ensures PatchCharsetEncoding(Some(n)) == "windows-1252"
  {
    PatchTidy(n);
    CodePageUpper(n);
    CodePageSteps(Upper(n));
  }

  lemma CodePageUpper(n: string)
    requires n == "cp1252"
    ensures Upper(n) == "CP1252"
  {
  }

  /** The fill character of `CP_125x` is kept: the source discards the
      result of its underscore replacement. */
  lemma UnderscoreKeptExample(n: string)
    requires n == "CP_1252"
    ensures PatchCharsetEncoding(Some(n)) == "windows_1252"
  {
    assert NoLower(n);
    PatchPlain(n);
    CodePageCased(n);
  }

  lemma CodePageSteps(e: string)
    requires e == "CP1252"
    ensures PatchUpper(e) == "windows-1252"
  {
    UpperToCased(e);
    CodePageCased(e);
  }

  /** The case-repaired tests on a code-page name leave it to the repairs,
      which turn it into a `windows` name. */
  lemma CodePageCased(e: string)
    requires e == "CP1252" || e == "CP_1252"
    ensures PatchCased(e) == (if e == "CP1252" then "windows-1252" else "windows_1252")
  {
    assert 'U' !in e;
    NoUtf(e);
    CasedToRepair(e);
    CodePageRepair(e);
  }

  lemma CodePageRepair(e: string)
    requires e == "CP1252" || e == "CP_1252"
    ensures Repair(e) == (if e == "CP1252" then "windows-1252" else "windows_1252")
  {
    NotPrefixed(e, "windows");
    NotPrefixed(e, "ISO");
    RepairOf(e, e, e, e);
    CodePageWindows(e);
  }

  lemma CodePageWindows(e: string)
    requires e == "CP1252" || e == "CP_1252"
    ensures CpToWindows(e) == (if e == "CP1252" then "windows-1252" else "windows_1252")
  {
    assert MatchesCp125x(e) by {
      if e == "CP1252" {
        assert e[2..][..3] == "125";
      } else {
        assert e[3..][..3] == "125";
      }
    }
    var r := CpToWindows(e);
    assert r == r[..7] + [r[7]] + r[8..];
  }

  /** The length test comes before trimming: four characters that trim to
      two are upper-cased and kept, while patching those two gives the
      default. */
  lemma ShortAfterTrimExample(n: string, m: string)
    requires n == "  ab" && m == "AB"
    ensures PatchCharsetEncoding(Some(n)) == m
    ensures PatchCharsetEncoding(Some(m)) == DefaultCharset
  {
    TrimTwoBlanks(n);
    assert Upper("ab") == m;
    ShortSteps(m);
  }

  lemma TrimTwoBlanks(n: string)
    requires n == "  ab"
    ensures Trim(n) == "ab"
  {
    assert TrimStart(n) == "ab" by {
      assert n[1..] == " ab" && " ab"[1..] == "ab";
    }
    TrimTidy("ab");
  }

  lemma ShortSteps(m: string)
    requires m == "AB"
    ensures PatchUpper(m) == m
  {
    assert 'U' !in m;
    NoUtf(m);
    NotGb(m);
    assert !StartsWith(m, "BIG") && !StartsWith(m, "KOI");
    assert m[..2][0] == 'A';
    CasedRepair(m);
    assert Repair(m) == m;
  }
}

=== FILE: deletion.dfy ===
/** `Segment.removeAllUrlReferences`: there is no URL-to-terms index, so the
    document is loaded and parsed again to recover its words, the URL's
    postings are removed from those words' containers, and finally the
    full-text record goes. */
module Deletion {

  import opened Base
  import opened KeyedStore
  import opened SegmentModel
  import Indexing

  /** What loading and re-parsing the stored URL yields: the word set of the
      re-parsed document, no document at all, or one of the two caught
      failures (`Parser.Failure`, `IOException`). */
  datatype Reload = Reparsed(words: seq<string>) | NoDocument | ParseFailure | LoadFailure

  datatype Removal = Removal(segment: Segment, count: nat)

  /** The record of `h` names a URL, so the routine gets past its early exits. */
  predicate Reachable(seg: Segment, h: Hash) {
    h in seg.fulltext && seg.fulltext[h].url.Some?
  }

  /** The routine as the source writes it. The term index is used without a
      `null` check, so a reparsed document on a disconnected term index
      raises a `NullPointerException`, which neither catch clause handles. */
  function RemoveAllUrlReferencesAsWritten(seg: Segment, urlhash: Option<Hash>, load: Url -> Reload,
                                           wordHash: string -> Hash): (r: Result<Removal>)
    ensures (urlhash.Some? && Reachable(seg, urlhash.value) && seg.termIndex.None?
             && load(seg.fulltext[urlhash.value].url.value).Reparsed?) ==> r == Failure(NullPointer)
  {
    if urlhash.None? then Success(Removal(seg, 0))
    else
      var h := urlhash.value;
      if h !in seg.fulltext then Success(Removal(seg, 0))
      else if seg.fulltext[h].url.None? then Success(Removal(seg, 0))
      else
        match load(seg.fulltext[h].url.value)
        case NoDocument => Success(Removal(seg.(fulltext := seg.fulltext - {h}), 0))
        case ParseFailure => Success(Removal(seg, 0))
        case LoadFailure => Success(Removal(seg, 0))
        case Reparsed(words) =>
          if seg.termIndex.None? then Failure(NullPointer)
          else
            var (idx, count) := RemoveUrl(seg.termIndex.value, TermHashes(words, wordHash), h);
            Success(Removal(seg.(termIndex := Some(idx), fulltext := seg.fulltext - {h}), count))
  }

  /** The counterexample: a stored URL whose document still loads, on a
      segment whose term index is disconnected. The call throws and the
      full-text record, which the routine exists to delete, stays. */
  lemma DisconnectedRemovalThrows(wordHash: string -> Hash)
    ensures
      var u := Url("AAAAAAAAAAAA", "http://a.b/", "en", 1);
      var seg := Segment(None, None, map["AAAAAAAAAAAA" := Record("AAAAAAAAAAAA", Some(u), "", "en", None)]);
      var load := (x: Url) => Reparsed(["a"]);
      RemoveAllUrlReferencesAsWritten(seg, Some("AAAAAAAAAAAA"), load, wordHash) == Failure(NullPointer)
      && "AAAAAAAAAAAA" in seg.fulltext
  {
  }

  /** The routine with the guard every other term-index access in `Segment`
      has: a disconnected term index has no postings to remove, and the
      record is still deleted. */
  function RemoveAllUrlReferences(seg: Segment, urlhash: Option<Hash>, load: Url -> Reload,
                                  wordHash: string -> Hash): (r: Removal)
    // early exits: no hash, no record, or a record without URL
    ensures urlhash.None? || !Reachable(seg, urlhash.value) ==> r == Removal(seg, 0)
    // citations are never touched
    ensures r.segment.citationIndex == seg.citationIndex
    ensures r.segment.termIndex.Some? == seg.termIndex.Some?
    ensures urlhash.Some? && Reachable(seg, urlhash.value) ==>
              var h := urlhash.value;
              var reload := load(seg.fulltext[h].url.value);
              // no document: only the record goes
              (reload.NoDocument? ==> r == Removal(seg.(fulltext := seg.fulltext - {h}), 0))
              // a failed load or parse: nothing changes, not even the record
              && (reload.ParseFailure? || reload.LoadFailure? ==> r == Removal(seg, 0))
              // success: the record goes and only it
              && (reload.Reparsed? ==> r.segment.fulltext == seg.fulltext - {h})
              && (reload.Reparsed? && seg.termIndex.None? ==> r == Removal(seg.(fulltext := seg.fulltext - {h}), 0))
  {
    if urlhash.Some? && Reachable(seg, urlhash.value) && seg.termIndex.None?
       && load(seg.fulltext[urlhash.value].url.value).Reparsed?
    then Removal(seg.(fulltext := seg.fulltext - {urlhash.value}), 0)
    else RemoveAllUrlReferencesAsWritten(seg, urlhash, load, wordHash).value
  }

  /** On a connected term index the corrected routine is the source's. */
  lemma CorrectedAgreesWhenConnected(seg: Segment, urlhash: Option<Hash>, load: Url -> Reload,
                                     wordHash: string -> Hash)
    requires seg.termIndex.Some?
    ensures RemoveAllUrlReferencesAsWritten(seg, urlhash, load, wordHash)
            == Success(RemoveAllUrlReferences(seg, urlhash, load, wordHash))
  {
  }

  /** The main path: every container of a re-parsed word loses exactly the
      URL's postings, every other container is untouched, and the count is
      the number of postings removed. */
  lemma RemovalEffect(seg: Segment, h: Hash, load: Url -> Reload, wordHash: string -> Hash, k: Hash)
    requires Reachable(seg, h) && seg.termIndex.Some?
    requires load(seg.fulltext[h].url.value).Reparsed?
    ensures
      var words := load(seg.fulltext[h].url.value).words;
      var r := RemoveAllUrlReferences(seg, Some(h), load, wordHash);
      var hs := TermHashes(words, wordHash);
      h !in r.segment.fulltext
      && Postings(r.segment, k) == (if k in hs then Untagged(Postings(seg, k), h) else Postings(seg, k))
      && r.count == TaggedUnder(seg.termIndex.value, hs, h)
  {
    var words := load(seg.fulltext[h].url.value).words;
    var hs := TermHashes(words, wordHash);
    RemoveUrlContents(seg.termIndex.value, hs, h, k);
    RemoveUrlCount(seg.termIndex.value, hs, h);
  }

  // ---------------------------------------------------------------------
  // the set overload

  /** `removeAllUrlReferences(HandleSet, …)`: the single-hash routine applied
      to each hash in turn. */
  function RemoveAllUrlReferencesSet(seg: Segment, hs: seq<Hash>, load: Url -> Reload,
                                     wordHash: string -> Hash): Segment
    decreases |hs|
  {
    if hs == [] then seg
    else RemoveAllUrlReferencesSet(RemoveAllUrlReferences(seg, Some(hs[0]), load, wordHash).segment,
                                   hs[1..], load, wordHash)
  }

  /** The single-hash routine deletes the record of this URL. */
  predicate Deletes(rec: Record, load: Url -> Reload) {
    rec.url.Some? && (load(rec.url.value).Reparsed? || load(rec.url.value).NoDocument?)
  }

  /** Each hash is handled on its own: a record goes exactly when it is
      listed and its own reload succeeds or finds no document; all other
      records stay as they were, whatever happened to the others. */
  lemma {:induction false} SetRemovalIndependent(seg: Segment, hs: seq<Hash>, load: Url -> Reload,
                                                 wordHash: string -> Hash, k: Hash)
    ensures
      var r := RemoveAllUrlReferencesSet(seg, hs, load, wordHash);
      (k in r.fulltext <==> k in seg.fulltext && !(k in hs && Deletes(seg.fulltext[k], load)))
      && (k in r.fulltext ==> r.fulltext[k] == seg.fulltext[k])
    decreases |hs|
  {
    if hs != [] {
      var s1 := RemoveAllUrlReferences(seg, Some(hs[0]), load, wordHash).segment;
      assert forall j :: j in s1.fulltext ==> j in seg.fulltext && s1.fulltext[j] == seg.fulltext[j];
      assert k != hs[0] ==> (k in s1.fulltext <==> k in seg.fulltext);
      assert k == hs[0] ==> (k in s1.fulltext <==> k in seg.fulltext && !Deletes(seg.fulltext[k], load));
      SetRemovalIndependent(s1, hs[1..], load, wordHash, k);
      assert k in hs <==> k == hs[0] || k in hs[1..];
    }
  }

  /** Where the set overload as written ends: the segment it leaves behind,
      and the exception that escaped its loop, if any. */
  datatype SetRemoval = SetRemoval(segment: Segment, escaped: Option<Exception>)

  /** The set overload as the source writes it: it loops over the
      single-hash routine as written, so the first `NullPointerException`
      leaves the loop, and the hashes after it are never processed. */
  function RemoveAllUrlReferencesSetAsWritten(seg: Segment, hs: seq<Hash>, load: Url -> Reload,
                                              wordHash: string -> Hash): (r: SetRemoval)
    ensures r.escaped.None? || r.escaped == Some(NullPointer)
    ensures r.segment.citationIndex == seg.citationIndex
    decreases |hs|
  {
    if hs == [] then SetRemoval(seg, None)
    else
      match RemoveAllUrlReferencesAsWritten(seg, Some(hs[0]), load, wordHash)
      case Failure(e) => SetRemoval(seg, Some(e))
      case Success(rem) => RemoveAllUrlReferencesSetAsWritten(rem.segment, hs[1..], load, wordHash)
  }

  /** The loop as written agrees with the corrected one whenever nothing
      escapes, and nothing escapes while the term index is connected. */
  lemma {:induction false} SetAsWrittenAgrees(seg: Segment, hs: seq<Hash>, load: Url -> Reload,
                                              wordHash: string -> Hash)
    ensures var r := RemoveAllUrlReferencesSetAsWritten(seg, hs, load, wordHash);
            (r.escaped.None? ==> r.segment == RemoveAllUrlReferencesSet(seg, hs, load, wordHash))
            && (seg.termIndex.Some? ==> r.escaped.None?)
    decreases |hs|
  {
    if hs != [] {
      var a := RemoveAllUrlReferencesAsWritten(seg, Some(hs[0]), load, wordHash);
      if a.Success? {
        assert a.value == RemoveAllUrlReferences(seg, Some(hs[0]), load, wordHash);
        SetAsWrittenAgrees(a.value.segment, hs[1..], load, wordHash);
      } else if seg.termIndex.Some? {
        CorrectedAgreesWhenConnected(seg, Some(hs[0]), load, wordHash);
      }
    }
  }

  /** The hash `h` would make the single-hash routine as written throw. */
  predicate Throws(seg: Segment, h: Hash, load: Url -> Reload) {
    seg.termIndex.None? && Reachable(seg, h) && load(seg.fulltext[h].url.value).Reparsed?
  }

  /** On a disconnected term index, the loop as written stops at the first
      hash that throws: what it leaves is the corrected loop's result on the
      hashes before that one. */
  lemma {:induction false} SetAbortPrefix(seg: Segment, pre: seq<Hash>, h: Hash, post: seq<Hash>,
                                          load: Url -> Reload, wordHash: string -> Hash)
    requires forall j :: 0 <= j < |pre| ==> !Throws(seg, pre[j], load)
    requires Throws(seg, h, load) && h !in pre
    ensures RemoveAllUrlReferencesSetAsWritten(seg, pre + [h] + post, load, wordHash)
            == SetRemoval(RemoveAllUrlReferencesSet(seg, pre, load, wordHash), Some(NullPointer))
    decreases |pre|
  {
    var hs := pre + [h] + post;
    if pre == [] {
      assert hs[0] == h;
    } else {
      assert hs[0] == pre[0] && hs[1..] == pre[1..] + [h] + post;
      var a := RemoveAllUrlReferencesAsWritten(seg, Some(pre[0]), load, wordHash);
      assert a.Success? && a.value == RemoveAllUrlReferences(seg, Some(pre[0]), load, wordHash);
      var s1 := a.value.segment;
      assert s1.termIndex.None?;
      assert forall k :: k in s1.fulltext ==> k in seg.fulltext && s1.fulltext[k] == seg.fulltext[k];
      assert forall j :: 0 <= j < |pre[1..]| ==> pre[1..][j] == pre[j + 1];
      SetAbortPrefix(s1, pre[1..], h, post, load, wordHash);
    }
  }

  /** The consequence for the records: on a disconnected term index, the
      throwing hash and every hash after it that is not also listed before
      it keep their full-text records, even where the corrected loop would
      delete them. */
  lemma SetAbortKeepsRest(seg: Segment, pre: seq<Hash>, h: Hash, post: seq<Hash>,
                          load: Url -> Reload, wordHash: string -> Hash, k: Hash)
    requires forall j :: 0 <= j < |pre| ==> !Throws(seg, pre[j], load)
    requires Throws(seg, h, load) && h !in pre
    requires k in [h] + post && k !in pre && k in seg.fulltext
    ensures var r := RemoveAllUrlReferencesSetAsWritten(seg, pre + [h] + post, load, wordHash);
            r.escaped == Some(NullPointer) && k in r.segment.fulltext
            && r.segment.fulltext[k] == seg.fulltext[k]
  {
    SetAbortPrefix(seg, pre, h, post, load, wordHash);
    SetRemovalIndependent(seg, pre, load, wordHash, k);
  }

  // ---------------------------------------------------------------------
  // deletion undoes indexing

  function WordsOf(words: seq<(string, Word)>): (r: seq<string>)
    ensures |r| == |words| && forall i :: 0 <= i < |words| ==> r[i] == words[i].0
  {
    seq(|words|, i requires 0 <= i < |words| => words[i].0)
  }

  lemma {:induction false} WordEntriesKeys(p: Posting, words: seq<(string, Word)>, wordHash: string -> Hash,
                                           skip: set<nat>, from: nat)
    ensures forall e :: e in Indexing.WordEntries(p, words, wordHash, skip, from) ==>
              e.1.urlHash == p.urlHash && exists j :: from <= j < |words| && e.0 == wordHash(words[j].0)
    decreases |words| - from
  {
    if from < |words| {
      Indexing.WordEntriesUnfold(p, words, wordHash, skip, from);
      WordEntriesKeys(p, words, wordHash, skip, from + 1);
    }
  }

  /** The term-index writes of an indexing call all carry the document's URL
      hash, and besides the catch-all they only touch the words' containers. */
  lemma BatchKeys(seg: Segment, event: Option<Indexing.SearchEvent>, p: Posting,
                  words: seq<(string, Word)>, wordHash: string -> Hash, faults: Indexing.Faults, k: Hash)
    ensures var added := Under(Indexing.PostingBatch(seg, true, event, p, words, wordHash, faults), k);
            (forall x :: x in added ==> x.urlHash == p.urlHash)
            && (k !in TermHashes(WordsOf(words), wordHash) && k != wordHash(CatchallString) ==> added == [])
  {
    var batch := Indexing.PostingBatch(seg, true, event, p, words, wordHash, faults);
    var ws := Indexing.WordEntries(p, words, wordHash, faults.wordFails, 0);
    var added := Under(batch, k);
    UnderFrom(batch, k);
    WordEntriesKeys(p, words, wordHash, faults.wordFails, 0);
    if k !in TermHashes(WordsOf(words), wordHash) && k != wordHash(CatchallString) {
      forall x ensures x !in added {
        if x in added {
          var j :| 0 <= j < |words| && k == wordHash(words[j].0);
        }
      }
      if added != [] {
        HeadIsMember(added);
      }
    }
  }

  /** What deletion finds after an indexing call: the record names the URL
      and every container is the old one plus postings of that URL. */
  lemma StoredFacts(seg: Segment, stored: Segment, url: Url, referrer: Option<Url>, lastModified: int,
                    doc: Indexing.Document, cond: Indexing.Condenser, event: Option<Indexing.SearchEvent>,
                    loadDate: int, stamp: int, wordHash: string -> Hash, country: string -> string,
                    faults: Indexing.Faults, k: Hash)
    requires seg.termIndex.Some? && !faults.putFails
    requires stored == Indexing.StoreDocument(seg, url, referrer, lastModified, doc, cond, event, true,
                                              loadDate, stamp, wordHash, country, faults).segment
    ensures stored.termIndex.Some? && Reachable(stored, url.hash)
    ensures stored.fulltext[url.hash].url == Some(url)
    ensures var p := Indexing.Template(url, lastModified, doc, cond, loadDate, stamp, country);
            Postings(stored, k)
            == Postings(seg, k) + Under(Indexing.PostingBatch(seg, true, event, p, cond.words, wordHash, faults), k)
  {
    Indexing.StoredPostings(seg, url, referrer, lastModified, doc, cond, event, true, loadDate, stamp,
                            wordHash, country, faults, k);
  }

  /** Indexing a document and then deleting its URL, with the re-parse
      yielding the words that were indexed, leaves every word container as
      it was apart from the URL's own postings; containers of other terms
      besides the catch-all are exactly as before indexing, and the record
      is gone. */
  lemma StoreThenRemove(seg: Segment, url: Url, referrer: Option<Url>, lastModified: int,
                        doc: Indexing.Document, cond: Indexing.Condenser, event: Option<Indexing.SearchEvent>,
                        loadDate: int, stamp: int, wordHash: string -> Hash, country: string -> string,
                        faults: Indexing.Faults, load: Url -> Reload, k: Hash)
    requires seg.termIndex.Some? && !faults.putFails
    requires load(url) == Reparsed(WordsOf(cond.words))
    ensures
      var stored := Indexing.StoreDocument(seg, url, referrer, lastModified, doc, cond, event, true,
                                           loadDate, stamp, wordHash, country, faults).segment;
      var removed := RemoveAllUrlReferences(stored, Some(url.hash), load, wordHash).segment;
      var hs := TermHashes(WordsOf(cond.words), wordHash);
      url.hash !in removed.fulltext
      && (k in hs ==> Postings(removed, k) == Untagged(Postings(seg, k), url.hash))
      && (k !in hs && k != wordHash(CatchallString) ==> Postings(removed, k) == Postings(seg, k))
      && (k !in hs ==> Postings(removed, k) == Postings(stored, k))
  {
    var stored := Indexing.StoreDocument(seg, url, referrer, lastModified, doc, cond, event, true,
                                         loadDate, stamp, wordHash, country, faults).segment;
    var p := Indexing.Template(url, lastModified, doc, cond, loadDate, stamp, country);
    var added := Under(Indexing.PostingBatch(seg, true, event, p, cond.words, wordHash, faults), k);
    var hs := TermHashes(WordsOf(cond.words), wordHash);
    StoredFacts(seg, stored, url, referrer, lastModified, doc, cond, event, loadDate, stamp, wordHash,
                country, faults, k);
    RemovalEffect(stored, url.hash, load, wordHash, k);
    BatchKeys(seg, event, p, cond.words, wordHash, faults, k);
    if k in hs {
      UntaggedAppend(Postings(seg, k), added, url.hash);
      UntaggedAll(added, url.hash);
    }
  }

  /** The catch-all posting is not recomputed on deletion: unless the
      document itself contains the catch-all word, the URL's catch-all
      posting outlives the URL. */
  lemma CatchallSurvivesRemoval(seg: Segment, url: Url, referrer: Option<Url>, lastModified: int,
                                doc: Indexing.Document, cond: Indexing.Condenser,
                                event: Option<Indexing.SearchEvent>, loadDate: int, stamp: int,
                                wordHash: string -> Hash, country: string -> string,
                                faults: Indexing.Faults, load: Url -> Reload)
    requires seg.termIndex.Some? && !faults.putFails && !faults.catchallFails
    requires load(url) == Reparsed(WordsOf(cond.words))
    requires forall j :: 0 <= j < |cond.words| ==> wordHash(cond.words[j].0) != wordHash(CatchallString)
    ensures
      var stored := Indexing.StoreDocument(seg, url, referrer, lastModified, doc, cond, event, true,
                                           loadDate, stamp, wordHash, country, faults).segment;
      var removed := RemoveAllUrlReferences(stored, Some(url.hash), load, wordHash).segment;
      url.hash !in removed.fulltext
      && Tagged(Postings(removed, wordHash(CatchallString)), url.hash) != []
  {
    var ch := wordHash(CatchallString);
    var stored := Indexing.StoreDocument(seg, url, referrer, lastModified, doc, cond, event, true,
                                         loadDate, stamp, wordHash, country, faults).segment;
    var p := Indexing.Template(url, lastModified, doc, cond, loadDate, stamp, country);
    var q := p.(word := Indexing.CatchallProps(cond.words));
    var hs := TermHashes(WordsOf(cond.words), wordHash);
    assert ch !in hs;
    StoreThenRemove(seg, url, referrer, lastModified, doc, cond, event, loadDate, stamp, wordHash,
                    country, faults, load, ch);
    Indexing.OneCatchallPosting(seg, url, referrer, lastModified, doc, cond, event, true, loadDate, stamp,
                                wordHash, country, faults);
    TaggedLast(Postings(seg, ch), q, url.hash);
  }

  lemma {:induction false} TaggedLast(ps: seq<Posting>, q: Posting, u: Hash)
    requires q.urlHash == u
    ensures Tagged(ps + [q], u) != []
    decreases |ps|
  {
    if ps == [] {
      assert ps + [q] == [q];
    } else {
      assert (ps + [q])[1..] == ps[1..] + [q];
      TaggedLast(ps[1..], q, u);
    }
  }

  lemma HeadIsMember<T>(s: seq<T>)
    requires s != []
    ensures s[0] in s
  {
  }
}

=== FILE: extensions.dfy ===
/** Comma-separated extension lists, the extension sets built from them and
    the parser-mode check of `plasmaParser`. */
module Extensions {

  import opened Base
  import opened JavaText
  import MimeTypes

  // ---------------------------------------------------------------------
  // comma lists

  /** Cuts a string at every comma, keeping every piece, empty ones
      included. */
  function SplitAll(s: string): (r: seq<string>)
    ensures |r| >= 1
    ensures forall i :: 0 <= i < |r| ==> ',' !in r[i]
    decreases |s|
  {
    var p := CharIndexOf(s, ',');
    if p < 0 then [s]
    else
      PrefixFree(s, ',', p);
      [s[..p]] + SplitAll(s[p + 1..])
  }

  /** The text before the first occurrence of `c` holds no `c`. */
  lemma PrefixFree(s: string, c: char, p: nat)
    requires p <= |s| && forall k :: 0 <= k < p ==> s[k] != c
    ensures c !in s[..p]
  {
  }

  /** Puts comma-separated pieces back together. */
  function Join(xs: seq<string>): string
    requires |xs| >= 1
  {
    if |xs| == 1 then xs[0] else xs[0] + "," + Join(xs[1..])
  }

  /** Cutting at the commas loses nothing. */
  lemma {:induction false} SplitJoin(s: string)
    ensures Join(SplitAll(s)) == s
    decreases |s|
  {
    var p := CharIndexOf(s, ',');
    if p >= 0 {
      var rest := s[p + 1..];
      SplitJoin(rest);
      JoinCons(s[..p], SplitAll(rest));
      CommaCut(s, p);
    }
  }

  /** A string is the text before a comma, the comma and the text after. */
  lemma CommaCut(s: string, p: nat)
    requires p < |s| && s[p] == ','
    ensures s == s[..p] + "," + s[p + 1..]
  {
    assert s == s[..p] + [s[p]] + s[p + 1..];
  }

  lemma JoinCons(a: string, xs: seq<string>)
    requires |xs| >= 1
    ensures Join([a] + xs) == a + "," + Join(xs)
  {
    assert ([a] + xs)[1..] == xs;
  }

  /** The first comma of `a + "," + rest` is the one after `a`. */
  lemma FirstComma(a: string, rest: string)
    requires ',' !in a
    ensures CharIndexOf(a + "," + rest, ',') == |a|
    ensures (a + "," + rest)[..|a|] == a && (a + "," + rest)[|a| + 1..] == rest
  {
    var s := a + "," + rest;
    assert s[|a|] == ',';
    assert forall k :: 0 <= k < |a| ==> s[k] == a[k];
  }

  /** Comma-free pieces are recovered from their join. */
  lemma {:induction false} JoinSplit(xs: seq<string>)
    requires |xs| >= 1
    requires forall i :: 0 <= i < |xs| ==> ',' !in xs[i]
    ensures SplitAll(Join(xs)) == xs
    decreases |xs|
  {
    if |xs| > 1 {
      SplitCons(xs[0], Join(xs[1..]));
      JoinSplit(xs[1..]);
      assert xs == [xs[0]] + xs[1..];
    } else {
      assert CharIndexOf(Join(xs), ',') < 0;
    }
  }

  /** Splitting a comma-free piece, a comma and a rest yields the piece
      followed by the pieces of the rest. */
  lemma SplitCons(a: string, rest: string)
    requires ',' !in a
    ensures SplitAll(a + "," + rest) == [a] + SplitAll(rest)
  {
    FirstComma(a, rest);
  }

  /** Drops the empty pieces at the end of a list. */
  function DropTrailingEmpty(xs: seq<string>): (r: seq<string>)
    ensures |r| <= |xs| && r == xs[..|r|]
    ensures r == [] || r[|r| - 1] != []
    ensures forall i :: |r| <= i < |xs| ==> xs[i] == []
  {
    if |xs| > 0 && xs[|xs| - 1] == [] then
      var r := DropTrailingEmpty(xs[..|xs| - 1]);
      assert xs[..|xs| - 1][..|r|] == xs[..|r|];
      r
    else xs
  }

  /** Java's `String.split(",")`: every piece between commas, with the
      empty pieces at the end removed. Java answers `[""]` for the empty
      string, where this gives `[]`; `ExtList` never splits an empty
      string. */
  function JavaSplit(s: string): (r: seq<string>)
    ensures forall i :: 0 <= i < |r| ==> ',' !in r[i]
    ensures r == [] || r[|r| - 1] != []
  {
    var all := SplitAll(s);
    var r := DropTrailingEmpty(all);
    assert forall i :: 0 <= i < |r| ==> r[i] == all[i];
    r
  }

  /** Whatever `split` drops is empty: the pieces between the commas are
      the pieces kept followed by empty ones only. */
  lemma JavaSplitRecovers(s: string)
    ensures SplitAll(s) == JavaSplit(s) + seq(|SplitAll(s)| - |JavaSplit(s)|, _ => "")
  {
    var all := SplitAll(s);
    var r := JavaSplit(s);
    var tail := seq(|all| - |r|, _ => "");
    assert all == all[..|r|] + all[|r|..];
    assert all[|r|..] == tail;
  }

  /** `extString2extList`: no extension for a missing or empty string;
      otherwise each comma-separated piece, lower-cased and trimmed. */
  function ExtList(extString: Option<string>): (r: seq<string>)
    ensures extString.None? || extString.value == [] ==> r == []
    ensures extString.Some? && extString.value != [] ==> |r| == |JavaSplit(extString.value)|
    ensures forall i :: 0 <= i < |r| ==> ',' !in r[i] && NoUpper(r[i]) && Tidy(r[i])
    ensures extString.Some? && extString.value != [] ==>
              forall i :: 0 <= i < |r| ==> r[i] == NormalExt(JavaSplit(extString.value)[i])
  {
    if extString.None? || extString.value == [] then []
    else
      var xs := JavaSplit(extString.value);
      seq(|xs|, i requires 0 <= i < |xs| => ListedExt(xs[i]))
  }

  /** One list element: lower-cased, then trimmed, which is its normal
      form. */
  function ListedExt(piece: string): (r: string)
    ensures NoUpper(r) && Tidy(r)
    ensures ',' !in piece ==> ',' !in r
    ensures r == NormalExt(piece)
  {
    var l := Lower(piece);
    var r := Trim(l);
    assert NoUpper(r) && (',' !in piece ==> ',' !in r) by {
      LowerKeepsOther(piece, ',');
      TrimOccurs(l);
      OccursNoUpper(l, r, Leading(l));
      if ',' !in piece {
        OccursKeeps(l, r, Leading(l), ',');
      }
    }
    assert r == NormalExt(piece) by {
      TrimLowerCommute(piece);
    }
    r
  }

  // ---------------------------------------------------------------------
  // extension sets

  /** The extension a lookup compares: trimmed, then lower-cased. */
  function NormalExt(ext: string): string {
    Lower(Trim(ext))
  }

  /** `imageExtContains`, `audioExtContains`, `videoExtContains` and
      `appsExtContains` share this shape: false for a missing extension,
      else membership of the normalised extension. */
  function ExtContains(exts: set<string>, ext: Option<string>): (r: bool)
    ensures ext.None? ==> !r
    ensures r ==> exists e :: e in exts && e == NormalExt(ext.value)
    ensures r <==> ext.Some? && NormalExt(ext.value) in exts
  {
    ext.Some? && NormalExt(ext.value) in exts
  }

  /** The extension sets the parser is configured with. */
  datatype ExtSets = ExtSets(
    htmlFileExt: set<string>,
    media: set<string>,
    image: set<string>,
    audio: set<string>,
    video: set<string>,
    apps: set<string>)

  /** `initImageExt` and its siblings: the set holds exactly the listed
      extensions. */
  function InitExt(exts: seq<string>): (r: set<string>)
    ensures forall e :: e in r <==> e in exts
  {
    set e | e in exts
  }

  /** `x` has the normal form of one of the pieces of `extString`. */
  predicate ListedPiece(extString: string, x: string) {
    exists i :: 0 <= i < |JavaSplit(extString)| && NormalExt(x) == NormalExt(JavaSplit(extString)[i])
  }

  /** The set built from a configured list accepts exactly the extensions
      whose normal form is that of one of the listed pieces, and holds
      normal forms only. */
  lemma ListedExtExactly(extString: string, x: string)
    ensures ExtContains(InitExt(ExtList(Some(extString))), Some(x)) <==> extString != [] && ListedPiece(extString, x)
    ensures forall e :: e in InitExt(ExtList(Some(extString))) ==> NormalExt(e) == e
  {
    ListedNormal(extString);
    if ExtContains(InitExt(ExtList(Some(extString))), Some(x)) {
      ListedHit(extString, x);
    }
    if extString != [] && ListedPiece(extString, x) {
      ListedPieceHit(extString, x);
    }
  }

  lemma ListedNormal(extString: string)
    ensures forall e :: e in InitExt(ExtList(Some(extString))) ==> NormalExt(e) == e
  {
    var list := ExtList(Some(extString));
    forall e | e in InitExt(list) ensures NormalExt(e) == e {
      var i :| 0 <= i < |list| && list[i] == e;
      TrimTidy(e);
      LowerNoUpper(e);
    }
  }

  lemma ListedHit(extString: string, x: string)
    requires ExtContains(InitExt(ExtList(Some(extString))), Some(x))
    ensures extString != [] && ListedPiece(extString, x)
  {
    var list := ExtList(Some(extString));
    var i :| 0 <= i < |list| && list[i] == NormalExt(x);
  }

  lemma ListedPieceHit(extString: string, x: string)
    requires extString != [] && ListedPiece(extString, x)
    ensures ExtContains(InitExt(ExtList(Some(extString))), Some(x))
  {
    var i :| 0 <= i < |JavaSplit(extString)| && NormalExt(x) == NormalExt(JavaSplit(extString)[i]);
    var list := ExtList(Some(extString));
    assert list[i] == NormalExt(x);
  }

  /** The set built from a configured list accepts every piece of that list,
      whatever its case and surrounding blanks. */
  lemma {:induction false} ListedExtFound(extString: string, i: nat)
    requires extString != [] && i < |JavaSplit(extString)|
    ensures ExtContains(InitExt(ExtList(Some(extString))), Some(JavaSplit(extString)[i]))
  {
    var piece := JavaSplit(extString)[i];
    var list := ExtList(Some(extString));
    assert list[i] == ListedExt(piece);
    TrimLowerCommute(piece);
    assert list[i] == NormalExt(piece);
    assert list[i] in InitExt(list);
  }

  /** A lookup ignores the case of the letters and any blanks around the
      extension: `x` spells `ext` up to case. */
  lemma ExtContainsIgnoresCase(exts: set<string>, ext: string, lead: string, x: string, trail: string)
    requires forall i :: 0 <= i < |lead| ==> IsBlank(lead[i])
    requires forall i :: 0 <= i < |trail| ==> IsBlank(trail[i])
    requires Lower(x) == Lower(ext)
    ensures ExtContains(exts, Some(lead + x + trail)) == ExtContains(exts, Some(ext))
  {
    TrimPadded(lead, x, trail);
    TrimLowerCommute(x);
    TrimLowerCommute(ext);
  }

  /** `mediaExtContains`: a media extension counts only when neither the
      HTML extensions nor any parser (`parsable`) claims it. */
  function MediaExtContains(sets: ExtSets, parsable: set<string>, ext: Option<string>): (r: bool)
    ensures r ==> ExtContains(sets.media, ext)
    ensures r ==> !ExtContains(sets.htmlFileExt, ext) && !ExtContains(parsable, ext)
    ensures (ExtContains(sets.media, ext) && !ExtContains(sets.htmlFileExt, ext)
             && !ExtContains(parsable, ext)) ==> r
  {
    if ext.None? then false
    else
      var e := NormalExt(ext.value);
      if e in sets.htmlFileExt then false
      else if e in parsable then false
      else e in sets.media
  }

  /** `supportedHTMLFileExtContains`: the URL path's extension, compared as
      extracted (neither trimmed nor lower-cased), is an HTML extension. */
  predicate HtmlFileExtContains(sets: ExtSets, path: string) {
    MimeTypes.FileExt(path) in sets.htmlFileExt
  }

  /** `supportedHTMLContent`: both the MIME type and the path's extension
      must be HTML ones. Unless a blank precedes the parameters, the answer
      is that of the written MIME-type lookup. */
  function SupportedHtmlContent(sets: ExtSets, htmlMimeTypes: set<string>, path: string, mimeType: Option<string>): (r: bool)
    ensures r ==> MimeTypes.FileExt(path) in sets.htmlFileExt
    ensures Tidy(MimeTypes.NormalizeMimeTypeAsWritten(mimeType)) ==>
              (r <==> MimeTypes.NormalizeMimeTypeAsWritten(mimeType) in htmlMimeTypes
                      && MimeTypes.FileExt(path) in sets.htmlFileExt)
  {
    MimeTypes.HtmlMimeTypeContains(htmlMimeTypes, mimeType) && HtmlFileExtContains(sets, path)
  }

  /** A path whose extension counts as media never counts as HTML, as long
      as the extension is already in normal form (lower case, no blanks at
      either end): the HTML check compares the extension as extracted. */
  lemma MediaIsNotHtml(sets: ExtSets, parsable: set<string>, path: string)
    requires NormalExt(MimeTypes.FileExt(path)) == MimeTypes.FileExt(path)
    requires MediaExtContains(sets, parsable, Some(MimeTypes.FileExt(path)))
    ensures !HtmlFileExtContains(sets, path)
  {
  }

  // ---------------------------------------------------------------------
  // parser modes

  const ParserModes: set<string> := {"PROXY", "CRAWLER", "ICAP", "URLREDIRECTOR", "IMAGE"}

  /** `supportedContent(parserMode, url, mimeType)`. `configs` maps a mode
      to its parser configuration's own verdict on a (URL, MIME type) pair. */
  function SupportedContent(parserMode: string, url: Option<string>, mimeType: Option<string>,
                            configs: map<string, (string, Option<string>) -> bool>): (r: Result<bool>)
    ensures parserMode !in ParserModes <==> r == Failure(IllegalArgument)
    ensures parserMode in ParserModes && url.None? <==> r == Failure(NullPointer)
    ensures r.Success? ==> parserMode in ParserModes && url.Some?
    ensures r == Success(true) <==>
              parserMode in ParserModes && url.Some?
              && (parserMode == "IMAGE" || (parserMode in configs && configs[parserMode](url.value, mimeType)))
  {
    if parserMode !in ParserModes then Failure(IllegalArgument)
    else if url.None? then Failure(NullPointer)
    else if parserMode == "IMAGE" then Success(true)
    else if parserMode !in configs then Success(false)
    else Success(configs[parserMode](url.value, mimeType))
  }

  /** The answer for a mode depends on that mode's configuration alone, and
      the IMAGE mode consults neither the configurations nor the MIME
      type. */
  lemma SupportedContentLocal(parserMode: string, url: Option<string>, mimeType: Option<string>,
                              configs: map<string, (string, Option<string>) -> bool>,
                              others: map<string, (string, Option<string>) -> bool>,
                              otherType: Option<string>)
    ensures (parserMode in configs <==> parserMode in others)
            && (parserMode in configs ==> configs[parserMode] == others[parserMode])
            ==> SupportedContent(parserMode, url, mimeType, configs) == SupportedContent(parserMode, url, mimeType, others)
    ensures SupportedContent("IMAGE", url, mimeType, configs) == SupportedContent("IMAGE", url, otherType, others)
  {
  }
}

=== FILE: indexing.dfy ===
/** `Segment.storeDocument` and `Segment.addCitationIndex`: one parsed
    document becomes a full-text record, one posting per word plus a
    catch-all posting in the term index, and one citation per anchor. */
module Indexing {

  import opened Base
  import opened KeyedStore
  import opened SegmentModel
  import Language
  import opened JavaText

  /** What indexing reads of a parsed document. `docType` is the tag the
      response derives from the document's format; `anchors` are the outgoing
      links (`null` when the document has none recorded). */
  datatype Document = Document(
    title: string,
    language: Option<string>,
    docType: char,
    inboundLinks: nat,
    outboundLinks: nat,
    anchors: Option<seq<Url>>)

  /** The text statistics collaborator's output: its language guess, the
      words of the text in iteration order with their statistics, and the
      word and sentence counts. */
  datatype Condenser = Condenser(
    language: Option<string>,
    words: seq<(string, Word)>,
    numWords: nat,
    numSentences: nat)

  /** A running search: the term hashes it asks for and those it excludes. */
  datatype SearchEvent = SearchEvent(includeHashes: set<Hash>, excludeHashes: set<Hash>)

  /** Which store calls fail. Each failure is caught, logged and skipped:
      `wordFails` and `injectFails` hold word positions, `citationFails`
      anchor positions. */
  datatype Faults = Faults(
    putFails: bool,
    wordFails: set<nat>,
    catchallFails: bool,
    citationFails: set<nat>,
    injectFails: set<nat>)

  const NoFaults: Faults := Faults(false, {}, false, {}, {})

  /** The outcome of one `storeDocument` call: the new segment, the record
      that was sent to the full-text store (returned even when the put
      failed), the anchor count `addCitationIndex` reported, the postings
      pushed live into the search event, and how often the event was
      finalized. */
  datatype Indexed = Indexed(
    segment: Segment,
    record: Record,
    anchorCount: nat,
    injected: seq<(Hash, Posting)>,
    finalized: nat)

  /** The modification date is never later than the load date. */
  function ModDate(lastModified: int, loadDate: int): (d: int)
    ensures d <= lastModified && d <= loadDate
    ensures d == lastModified || d == loadDate
  {
    if lastModified > loadDate then loadDate else lastModified
  }

  /** The full-text record built from the document (the builder itself is a
      foreign collaborator; the model keeps what the core relies on). */
  function BuildRecord(url: Url, referrer: Option<Url>, doc: Document, language: string): Record {
    Record(url.hash, Some(url), doc.title, language, referrer)
  }

  /** The document-level posting prototype; `word` is set per word. The URL
      and title lengths count UTF-16 code units, as `String.length()` does. */
  function Prototype(url: Url, doc: Document, cond: Condenser, modDate: int, stamp: int,
                     language: string): Posting {
    Posting(url.hash, Utf16Length(url.normalForm), url.comps, Utf16Length(doc.title), cond.numWords, cond.numSentences,
            modDate, stamp, language, doc.docType, doc.inboundLinks, doc.outboundLinks, CatchallWord)
  }

  /** The word postings written from position `from` on. */
  function WordEntries(p: Posting, words: seq<(string, Word)>, wordHash: string -> Hash,
                       skip: set<nat>, from: nat): seq<(Hash, Posting)>
    decreases |words| - from
  {
    if from >= |words| then []
    else
      (if from in skip then [] else [(wordHash(words[from].0), p.(word := words[from].1))])
      + WordEntries(p, words, wordHash, skip, from + 1)
  }

  /** The one-posting containers pushed into the running search. */
  function InjectEntries(p: Posting, words: seq<(string, Word)>, wordHash: string -> Hash,
                         ev: SearchEvent, skip: set<nat>, from: nat): (r: seq<(Hash, Posting)>)
    ensures forall i :: 0 <= i < |r| ==> r[i].0 in ev.includeHashes && r[i].0 !in ev.excludeHashes
    ensures forall i :: 0 <= i < |r| ==>
              exists k :: from <= k < |words| && k !in skip
                          && r[i] == (wordHash(words[k].0), p.(word := words[k].1))
    decreases |words| - from
  {
    if from >= |words| then []
    else
      var h := wordHash(words[from].0);
      (if h !in ev.excludeHashes && h in ev.includeHashes && from !in skip then [(h, p.(word := words[from].1))] else [])
      + InjectEntries(p, words, wordHash, ev, skip, from + 1)
  }

  /** The word properties the catch-all posting borrows: the last word's, or
      the all-flags default when the document has no words. */
  function CatchallProps(words: seq<(string, Word)>): (w: Word)
    ensures words == [] ==> w == CatchallWord && |w.flags| == 4
                            && forall i :: 0 <= i < 4 ==> w.flags[i]
    ensures words != [] ==> w == words[|words| - 1].1
  {
    if words == [] then CatchallWord else words[|words| - 1].1
  }

  /** The posting block runs when the term index is connected and writes
      are on, or when a search is running. */
  predicate BlockRuns(seg: Segment, storeToRWI: bool, event: Option<SearchEvent>) {
    (seg.termIndex.Some? && storeToRWI) || event.Some?
  }

  /** Every term-index write of one `storeDocument` call, in order. Word
      postings need a connected index and `storeToRWI`; the catch-all
      posting only needs a connected index once the block runs. */
  function PostingBatch(seg: Segment, storeToRWI: bool, event: Option<SearchEvent>, p: Posting,
                        words: seq<(string, Word)>, wordHash: string -> Hash, faults: Faults)
    : seq<(Hash, Posting)>
  {
    if !BlockRuns(seg, storeToRWI, event) then []
    else
      (if seg.termIndex.Some? && storeToRWI then WordEntries(p, words, wordHash, faults.wordFails, 0) else [])
      + (if seg.termIndex.Some? && !faults.catchallFails
         then [(wordHash(CatchallString), p.(word := CatchallProps(words)))] else [])
  }

  /** The citations written for the anchors from position `from` on. */
  function CitationEntries(urlHash: Hash, modDate: int, anchors: seq<Url>, skip: set<nat>, from: nat)
    : seq<(Hash, Citation)>
    decreases |anchors| - from
  {
    if from >= |anchors| then []
    else
      (if from in skip then [] else [(anchors[from].hash, Citation(urlHash, modDate))])
      + CitationEntries(urlHash, modDate, anchors, skip, from + 1)
  }

  /** `addCitationIndex`: the count is the number of anchors, whether or not
      the citation index is connected and whether or not an append failed. */
  function AddCitationIndex(seg: Segment, urlHash: Hash, modDate: int, anchors: Option<seq<Url>>,
                            skip: set<nat>): (r: (Segment, nat))
    ensures r.1 == if anchors.None? then 0 else |anchors.value|
    ensures r.0.termIndex == seg.termIndex && r.0.fulltext == seg.fulltext
    ensures r.0.citationIndex.Some? == seg.citationIndex.Some?
    ensures anchors.None? || seg.citationIndex.None? ==> r.0 == seg
  {
    if anchors.None? then (seg, 0)
    else
      var cit := if seg.citationIndex.None? then seg.citationIndex
                 else Some(AddAll(seg.citationIndex.value, CitationEntries(urlHash, modDate, anchors.value, skip, 0)));
      (seg.(citationIndex := cit), |anchors.value|)
  }

  /** `storeDocument`. `loadDate` and `stamp` are the two clock readings of
      the call; `wordHash` is `Word.word2hash`; `country` is `ISO639.country`. */
  function StoreDocument(seg: Segment, url: Url, referrer: Option<Url>, lastModified: int,
                         doc: Document, cond: Condenser, event: Option<SearchEvent>,
                         storeToRWI: bool, loadDate: int, stamp: int,
                         wordHash: string -> Hash, country: string -> string, faults: Faults)
    : (out: Indexed)
    // the record is returned whether or not the full-text put succeeded
    ensures out.record.id == url.hash && out.record.url == Some(url)
    ensures out.record.language
            == Language.VotedLanguage(cond.language, doc.language, url.tldLanguage, url.normalForm, country)
    ensures out.segment.fulltext
            == if faults.putFails then seg.fulltext else seg.fulltext[url.hash := out.record]
    // connections are left as they were
    ensures out.segment.termIndex.Some? == seg.termIndex.Some?
    ensures out.segment.citationIndex.Some? == seg.citationIndex.Some?
    ensures out.anchorCount == if doc.anchors.None? then 0 else |doc.anchors.value|
    // a running search is finalized exactly once, and only then
    ensures out.finalized == if event.Some? then 1 else 0
    ensures event.None? ==> out.injected == []
  {
    var language := Language.VotedLanguage(cond.language, doc.language, url.tldLanguage, url.normalForm, country);
    var modDate := ModDate(lastModified, loadDate);
    var record := BuildRecord(url, referrer, doc, language);
    var s1 := if faults.putFails then seg else seg.(fulltext := seg.fulltext[url.hash := record]);
    var p := Prototype(url, doc, cond, modDate, stamp, language);
    var batch := PostingBatch(seg, storeToRWI, event, p, cond.words, wordHash, faults);
    var s2 := if s1.termIndex.None? then s1 else s1.(termIndex := Some(AddAll(s1.termIndex.value, batch)));
    var injected := if event.None? then []
                    else InjectEntries(p, cond.words, wordHash, event.value, faults.injectFails, 0);
    var (s3, refs) := AddCitationIndex(s2, url.hash, modDate, doc.anchors, faults.citationFails);
    Indexed(s3, record, refs, injected, if event.Some? then 1 else 0)
  }

  // ---------------------------------------------------------------------
  // properties of storeDocument

  /** The prototype as `storeDocument` builds it from its inputs. */
  function Template(url: Url, lastModified: int, doc: Document, cond: Condenser, loadDate: int,
                    stamp: int, country: string -> string): Posting {
    Prototype(url, doc, cond, ModDate(lastModified, loadDate), stamp,
              Language.VotedLanguage(cond.language, doc.language, url.tldLanguage, url.normalForm, country))
  }

  /** Without faults the word batch holds exactly one posting per word, in
      iteration order, filed under that word's hash. */
  lemma {:induction false} WordEntriesComplete(p: Posting, words: seq<(string, Word)>,
                                               wordHash: string -> Hash, from: nat)
    requires from <= |words|
    ensures WordEntries(p, words, wordHash, {}, from)
            == seq(|words| - from, k requires 0 <= k < |words| - from =>
                     (wordHash(words[from + k].0), p.(word := words[from + k].1)))
    decreases |words| - from
  {
    if from < |words| {
      WordEntriesComplete(p, words, wordHash, from + 1);
    }
  }

  predicate DistinctWordHashes(words: seq<(string, Word)>, wordHash: string -> Hash) {
    forall i, j :: 0 <= i < j < |words| ==> wordHash(words[i].0) != wordHash(words[j].0)
  }

  lemma {:induction false} WordEntriesAbsent(p: Posting, words: seq<(string, Word)>, wordHash: string -> Hash,
                                             skip: set<nat>, from: nat, h: Hash)
    requires forall j :: from <= j < |words| ==> wordHash(words[j].0) != h
    ensures Under(WordEntries(p, words, wordHash, skip, from), h) == []
    decreases |words| - from
  {
    if from < |words| {
      var head := if from in skip then [] else [(wordHash(words[from].0), p.(word := words[from].1))];
      WordEntriesAbsent(p, words, wordHash, skip, from + 1, h);
      UnderAppend(head, WordEntries(p, words, wordHash, skip, from + 1), h);
    }
  }

  lemma WordEntriesUnfold(p: Posting, words: seq<(string, Word)>, wordHash: string -> Hash,
                          skip: set<nat>, from: nat)
    requires from < |words|
    ensures WordEntries(p, words, wordHash, skip, from)
            == (if from in skip then [] else [(wordHash(words[from].0), p.(word := words[from].1))])
               + WordEntries(p, words, wordHash, skip, from + 1)
  {
  }

  lemma {:induction false} WordEntriesUnder(p: Posting, words: seq<(string, Word)>, wordHash: string -> Hash,
                                            skip: set<nat>, from: nat, i: nat)
    requires DistinctWordHashes(words, wordHash)
    requires from <= i < |words|
    ensures Under(WordEntries(p, words, wordHash, skip, from), wordHash(words[i].0))
            == if i in skip then [] else [p.(word := words[i].1)]
    decreases |words| - from
  {
    var h := wordHash(words[i].0);
    var head := if from in skip then [] else [(wordHash(words[from].0), p.(word := words[from].1))];
    var rest := WordEntries(p, words, wordHash, skip, from + 1);
    WordEntriesUnfold(p, words, wordHash, skip, from);
    UnderAppend(head, rest, h);
    if from == i {
      assert forall j :: from + 1 <= j < |words| ==> wordHash(words[j].0) != h;
      WordEntriesAbsent(p, words, wordHash, skip, from + 1, h);
      assert Under(head, h) == if i in skip then [] else [p.(word := words[i].1)];
    } else {
      assert wordHash(words[from].0) != h;
      assert Under(head, h) == [];
      WordEntriesUnder(p, words, wordHash, skip, from + 1, i);
    }
  }

  /** Every container after the call is the old container extended by the
      batch entries filed under its key; nothing else changes. */
  lemma StoredPostings(seg: Segment, url: Url, referrer: Option<Url>, lastModified: int,
                       doc: Document, cond: Condenser, event: Option<SearchEvent>,
                       storeToRWI: bool, loadDate: int, stamp: int,
                       wordHash: string -> Hash, country: string -> string, faults: Faults, h: Hash)
    ensures Postings(StoreDocument(seg, url, referrer, lastModified, doc, cond, event, storeToRWI,
                                   loadDate, stamp, wordHash, country, faults).segment, h)
            == Postings(seg, h)
               + Under(PostingBatch(seg, storeToRWI, event,
                                    Template(url, lastModified, doc, cond, loadDate, stamp, country),
                                    cond.words, wordHash, faults), h)
  {
    var p := Template(url, lastModified, doc, cond, loadDate, stamp, country);
    var batch := PostingBatch(seg, storeToRWI, event, p, cond.words, wordHash, faults);
    if seg.termIndex.Some? {
      AddAllLookup(seg.termIndex.value, batch, h);
    } else {
      assert batch == [] || !BlockRuns(seg, storeToRWI, event) || seg.termIndex.None?;
    }
  }

  /** With the term index connected and writes on, each word whose append
      did not fail gains exactly one posting carrying the document's URL
      hash and the word's own properties (word hashes distinct and apart
      from the catch-all hash). */
  lemma EachWordOnePosting(seg: Segment, url: Url, referrer: Option<Url>, lastModified: int,
                           doc: Document, cond: Condenser, event: Option<SearchEvent>,
                           loadDate: int, stamp: int,
                           wordHash: string -> Hash, country: string -> string, faults: Faults, i: nat)
    requires seg.termIndex.Some?
    requires DistinctWordHashes(cond.words, wordHash)
    requires forall j :: 0 <= j < |cond.words| ==> wordHash(cond.words[j].0) != wordHash(CatchallString)
    requires i < |cond.words| && i !in faults.wordFails
    ensures Postings(StoreDocument(seg, url, referrer, lastModified, doc, cond, event, true,
                                   loadDate, stamp, wordHash, country, faults).segment,
                     wordHash(cond.words[i].0))
            == Postings(seg, wordHash(cond.words[i].0))
               + [Template(url, lastModified, doc, cond, loadDate, stamp, country).(word := cond.words[i].1)]
  {
    var p := Template(url, lastModified, doc, cond, loadDate, stamp, country);
    var h := wordHash(cond.words[i].0);
    var words := WordEntries(p, cond.words, wordHash, faults.wordFails, 0);
    var tail := if !faults.catchallFails then [(wordHash(CatchallString), p.(word := CatchallProps(cond.words)))] else [];
    StoredPostings(seg, url, referrer, lastModified, doc, cond, event, true, loadDate, stamp, wordHash, country, faults, h);
    UnderAppend(words, tail, h);
    WordEntriesUnder(p, cond.words, wordHash, faults.wordFails, 0, i);
  }

  /** Whenever the posting block runs on a connected term index, the
      catch-all container gains exactly one posting, even with `storeToRWI`
      off during a search; it borrows the last word's properties or the
      all-flags default. */
  lemma OneCatchallPosting(seg: Segment, url: Url, referrer: Option<Url>, lastModified: int,
                           doc: Document, cond: Condenser, event: Option<SearchEvent>,
                           storeToRWI: bool, loadDate: int, stamp: int,
                           wordHash: string -> Hash, country: string -> string, faults: Faults)
    requires seg.termIndex.Some? && BlockRuns(seg, storeToRWI, event) && !faults.catchallFails
    requires storeToRWI ==>
               forall j :: 0 <= j < |cond.words| ==> wordHash(cond.words[j].0) != wordHash(CatchallString)
    ensures Postings(StoreDocument(seg, url, referrer, lastModified, doc, cond, event, storeToRWI,
                                   loadDate, stamp, wordHash, country, faults).segment,
                     wordHash(CatchallString))
            == Postings(seg, wordHash(CatchallString))
               + [Template(url, lastModified, doc, cond, loadDate, stamp, country).(word := CatchallProps(cond.words))]
  {
    var p := Template(url, lastModified, doc, cond, loadDate, stamp, country);
    var h := wordHash(CatchallString);
    var words := if storeToRWI then WordEntries(p, cond.words, wordHash, faults.wordFails, 0) else [];
    var tail := [(h, p.(word := CatchallProps(cond.words)))];
    StoredPostings(seg, url, referrer, lastModified, doc, cond, event, storeToRWI, loadDate, stamp, wordHash, country, faults, h);
    UnderAppend(words, tail, h);
    if storeToRWI {
      WordEntriesAbsent(p, cond.words, wordHash, faults.wordFails, 0, h);
    }
  }

  /** With `storeToRWI` off, no word container changes: without a search
      the whole term index is untouched, and during a search only the
      catch-all container moves. */
  lemma NoWordPostingsWithoutStoreToRWI(seg: Segment, url: Url, referrer: Option<Url>, lastModified: int,
                                        doc: Document, cond: Condenser, event: Option<SearchEvent>,
                                        loadDate: int, stamp: int,
                                        wordHash: string -> Hash, country: string -> string, faults: Faults,
                                        h: Hash)
    ensures event.None? ==>
              StoreDocument(seg, url, referrer, lastModified, doc, cond, event, false,
                            loadDate, stamp, wordHash, country, faults).segment.termIndex == seg.termIndex
    ensures h != wordHash(CatchallString) ==>
              Postings(StoreDocument(seg, url, referrer, lastModified, doc, cond, event, false,
                                     loadDate, stamp, wordHash, country, faults).segment, h)
              == Postings(seg, h)
  {
    StoredPostings(seg, url, referrer, lastModified, doc, cond, event, false, loadDate, stamp, wordHash, country, faults, h);
    var p := Template(url, lastModified, doc, cond, loadDate, stamp, country);
    var batch := PostingBatch(seg, false, event, p, cond.words, wordHash, faults);
    if event.None? {
      assert batch == [];
      if seg.termIndex.Some? {
        assert AddAll(seg.termIndex.value, batch) == seg.termIndex.value;
      }
    }
  }

  /** Storing the same document twice doubles its contribution to every
      container: indexing does not deduplicate. */
  lemma StoreTwiceDoubles(seg: Segment, url: Url, referrer: Option<Url>, lastModified: int,
                          doc: Document, cond: Condenser, event: Option<SearchEvent>,
                          storeToRWI: bool, loadDate: int, stamp: int,
                          wordHash: string -> Hash, country: string -> string, faults: Faults, h: Hash)
    ensures
      var once := StoreDocument(seg, url, referrer, lastModified, doc, cond, event, storeToRWI,
                                loadDate, stamp, wordHash, country, faults).segment;
      var twice := StoreDocument(once, url, referrer, lastModified, doc, cond, event, storeToRWI,
                                 loadDate, stamp, wordHash, country, faults).segment;
      var added := Under(PostingBatch(seg, storeToRWI, event,
                                      Template(url, lastModified, doc, cond, loadDate, stamp, country),
                                      cond.words, wordHash, faults), h);
      Postings(once, h) == Postings(seg, h) + added
      && Postings(twice, h) == Postings(seg, h) + added + added
  {
    var once := StoreDocument(seg, url, referrer, lastModified, doc, cond, event, storeToRWI,
                              loadDate, stamp, wordHash, country, faults).segment;
    var p := Template(url, lastModified, doc, cond, loadDate, stamp, country);
    StoredPostings(seg, url, referrer, lastModified, doc, cond, event, storeToRWI, loadDate, stamp, wordHash, country, faults, h);
    StoredPostings(once, url, referrer, lastModified, doc, cond, event, storeToRWI, loadDate, stamp, wordHash, country, faults, h);
    assert PostingBatch(once, storeToRWI, event, p, cond.words, wordHash, faults)
           == PostingBatch(seg, storeToRWI, event, p, cond.words, wordHash, faults);
  }

  /** Without citation faults, the anchors' citations are exactly one
      `(url hash, modification date)` entry per anchor, in anchor order. */
  lemma {:induction false} CitationEntriesComplete(urlHash: Hash, modDate: int, anchors: seq<Url>, from: nat)
    requires from <= |anchors|
    ensures CitationEntries(urlHash, modDate, anchors, {}, from)
            == seq(|anchors| - from, k requires 0 <= k < |anchors| - from =>
                     (anchors[from + k].hash, Citation(urlHash, modDate)))
    decreases |anchors| - from
  {
    if from < |anchors| {
      CitationEntriesComplete(urlHash, modDate, anchors, from + 1);
    }
  }

  /** Each anchor appends one citation under the anchor's hash, carrying the
      citing URL's hash and the modification date `min(lastModified, loadDate)`. */
  lemma CitationFanOut(seg: Segment, url: Url, referrer: Option<Url>, lastModified: int,
                       doc: Document, cond: Condenser, event: Option<SearchEvent>,
                       storeToRWI: bool, loadDate: int, stamp: int,
                       wordHash: string -> Hash, country: string -> string, faults: Faults, h: Hash)
    requires seg.citationIndex.Some? && doc.anchors.Some?
    ensures Citations(StoreDocument(seg, url, referrer, lastModified, doc, cond, event, storeToRWI,
                                    loadDate, stamp, wordHash, country, faults).segment, h)
            == Citations(seg, h)
               + Under(CitationEntries(url.hash, ModDate(lastModified, loadDate), doc.anchors.value,
                                       faults.citationFails, 0), h)
  {
    var p := Template(url, lastModified, doc, cond, loadDate, stamp, country);
    var batch := PostingBatch(seg, storeToRWI, event, p, cond.words, wordHash, faults);
    var s1 := if faults.putFails then seg else seg.(fulltext := seg.fulltext[url.hash := BuildRecord(url, referrer, doc, p.language)]);
    var s2 := if s1.termIndex.None? then s1 else s1.(termIndex := Some(AddAll(s1.termIndex.value, batch)));
    assert s2.citationIndex == seg.citationIndex;
    AddAllLookup(seg.citationIndex.value,
                 CitationEntries(url.hash, ModDate(lastModified, loadDate), doc.anchors.value, faults.citationFails, 0), h);
  }

  /** Without injection faults, every word whose hash the search includes
      and does not exclude is pushed into it (the converse is part of
      `InjectEntries`' contract). */
  lemma {:induction false} InjectComplete(p: Posting, words: seq<(string, Word)>, wordHash: string -> Hash,
                                          ev: SearchEvent, from: nat, i: nat)
    requires from <= i < |words|
    requires wordHash(words[i].0) in ev.includeHashes && wordHash(words[i].0) !in ev.excludeHashes
    ensures (wordHash(words[i].0), p.(word := words[i].1)) in InjectEntries(p, words, wordHash, ev, {}, from)
    decreases |words| - from
  {
    if from < i {
      InjectComplete(p, words, wordHash, ev, from + 1, i);
    }
  }
}

=== FILE: javatext.dfy ===
/** The few `java.lang.String` operations the modelled code relies on,
    stated over `seq<char>`. Case mapping covers the ASCII letters only. */
module JavaText {

  import opened Base

  /** `String.trim` strips every character whose code is at most U+0020. */
  predicate IsBlank(c: char) {
    c <= ' '
  }

  function TrimStart(s: string): (r: string)
    ensures |r| <= |s|
    ensures r == [] || !IsBlank(r[0])
    decreases |s|
  {
    if |s| > 0 && IsBlank(s[0]) then TrimStart(s[1..]) else s
  }

  function TrimEnd(s: string): (r: string)
    ensures |r| <= |s|
    ensures r == [] || !IsBlank(r[|r| - 1])
    decreases |s|
  {
    if |s| > 0 && IsBlank(s[|s| - 1]) then TrimEnd(s[..|s| - 1]) else s
  }

  /** `TrimStart` drops a prefix. */
  lemma {:induction false} TrimStartIsSuffix(s: string)
    ensures TrimStart(s) == s[|s| - |TrimStart(s)|..]
    decreases |s|
  {
    if |s| > 0 && IsBlank(s[0]) {
      TrimStartIsSuffix(s[1..]);
      assert s[1..][|s| - 1 - |TrimStart(s)|..] == s[|s| - |TrimStart(s)|..];
    }
  }

  /** `TrimEnd` drops a suffix, and keeps a non-blank first character. */
  lemma {:induction false} TrimEndIsPrefix(s: string)
    ensures TrimEnd(s) == s[..|TrimEnd(s)|]
    ensures s == [] || !IsBlank(s[0]) ==> Tidy(TrimEnd(s))
    decreases |s|
  {
    if |s| > 0 && IsBlank(s[|s| - 1]) {
      var t := s[..|s| - 1];
      TrimEndIsPrefix(t);
      assert t[..|TrimEnd(s)|] == s[..|TrimEnd(s)|];
      assert |t| > 0 ==> t[0] == s[0];
    }
  }

  /** Neither end of the string is a blank. */
  predicate Tidy(s: string) {
    s == [] || (!IsBlank(s[0]) && !IsBlank(s[|s| - 1]))
  }

  /** How many blanks `String.trim` removes at the front. */
  function Leading(s: string): (n: nat)
    ensures n <= |s|
  {
    |s| - |TrimStart(s)|
  }

  function Trim(s: string): (r: string)
    ensures Tidy(r)
    ensures |r| <= |s|
  {
    TrimEndIsPrefix(TrimStart(s));
    TrimEnd(TrimStart(s))
  }

  /** Trimming cuts one slice out of the string, starting after the
      leading blanks. */
  lemma TrimSlice(s: string)
    ensures Leading(s) + |Trim(s)| <= |s|
    ensures Trim(s) == s[Leading(s)..Leading(s) + |Trim(s)|]
  {
    TrimStartSuffix(s);
    TrimEndIsPrefix(TrimStart(s));
    SuffixPrefix(s, Leading(s), |Trim(s)|);
  }

  lemma TrimOccurs(s: string)
    ensures OccursAt(s, Trim(s), Leading(s))
    ensures Contains(s, Trim(s))
  {
    TrimSlice(s);
    assert OccursAt(s, Trim(s), Leading(s));
  }

  lemma TrimStartSuffix(s: string)
    ensures TrimStart(s) == s[Leading(s)..]
  {
    TrimStartIsSuffix(s);
  }

  lemma SuffixPrefix(s: string, k: nat, n: nat)
    requires k + n <= |s|
    ensures s[k..][..n] == s[k..k + n]
  {
  }

  /** `TrimEnd` keeps every character up to a non-blank one. */
  lemma {:induction false} TrimEndKeeps(s: string, i: nat)
    requires i < |s| && !IsBlank(s[i])
    ensures |TrimEnd(s)| > i
    decreases |s|
  {
    if IsBlank(s[|s| - 1]) {
      TrimEndKeeps(s[..|s| - 1], i);
    }
  }

  /** Blanks after a string that ends with a non-blank are all that
      `TrimEnd` removes. */
  lemma {:induction false} TrimEndBlanks(t: string, bs: string)
    requires t == [] || !IsBlank(t[|t| - 1])
    requires forall i :: 0 <= i < |bs| ==> IsBlank(bs[i])
    ensures TrimEnd(t + bs) == t
    decreases |bs|
  {
    if bs == [] {
      assert t + bs == t;
    } else {
      var s := t + bs;
      assert s[..|s| - 1] == t + bs[..|bs| - 1];
      assert IsBlank(s[|s| - 1]);
      TrimEndBlanks(t, bs[..|bs| - 1]);
    }
  }

  /** A leading blank makes no difference to trimming. */
  lemma TrimLeadBlank(s: string)
    requires s != [] && IsBlank(s[0])
    ensures Trim(s) == Trim(s[1..])
  {
  }

  /** `TrimStart` of a string without its trailing blank. */
  lemma {:induction false} TrimStartDropLast(s: string)
    requires s != [] && IsBlank(s[|s| - 1])
    ensures TrimStart(s) == [] ==> TrimStart(s[..|s| - 1]) == []
    ensures TrimStart(s) != [] ==> TrimStart(s[..|s| - 1]) == TrimStart(s)[..|TrimStart(s)| - 1]
    decreases |s|
  {
    var d := s[..|s| - 1];
    if IsBlank(s[0]) && |s| > 1 {
      assert s[1..][..|s[1..]| - 1] == d[1..];
      TrimStartDropLast(s[1..]);
    }
  }

  /** A trailing blank makes no difference to trimming. */
  lemma TrimTailBlank(s: string)
    requires s != [] && IsBlank(s[|s| - 1])
    ensures Trim(s) == Trim(s[..|s| - 1])
  {
    TrimStartDropLast(s);
    var a := TrimStart(s);
    if a != [] {
      TrimStartIsSuffix(s);
      assert a[|a| - 1] == s[|s| - 1];
    }
  }

  /** Blanks around a string make no difference to trimming. */
  lemma {:induction false} TrimPadded(lead: string, x: string, trail: string)
    requires forall i :: 0 <= i < |lead| ==> IsBlank(lead[i])
    requires forall i :: 0 <= i < |trail| ==> IsBlank(trail[i])
    ensures Trim(lead + x + trail) == Trim(x)
    decreases |lead| + |trail|
  {
    var s := lead + x + trail;
    if lead != [] {
      assert IsBlank(s[0]);
      TrimLeadBlank(s);
      assert s[1..] == lead[1..] + x + trail;
      TrimPadded(lead[1..], x, trail);
    } else if trail != [] {
      assert IsBlank(s[|s| - 1]);
      TrimTailBlank(s);
      assert s[..|s| - 1] == lead + x + trail[..|trail| - 1];
      TrimPadded(lead, x, trail[..|trail| - 1]);
    } else {
      assert s == x;
    }
  }

  lemma TrimTidy(s: string)
    requires Tidy(s)
    ensures Trim(s) == s
  {
  }

  /** Two strings of one length with blanks at the same places. */
  predicate BlankAlike(s: string, t: string) {
    |s| == |t| && forall i :: 0 <= i < |s| ==> (IsBlank(s[i]) <==> IsBlank(t[i]))
  }

  lemma {:induction false} TrimStartAlike(s: string, t: string)
    requires BlankAlike(s, t)
    ensures |TrimStart(s)| == |TrimStart(t)|
    decreases |s|
  {
    if |s| > 0 && IsBlank(s[0]) {
      assert BlankAlike(s[1..], t[1..]) by {
        forall i | 0 <= i < |s| - 1 ensures IsBlank(s[1..][i]) <==> IsBlank(t[1..][i]) {
          assert s[1..][i] == s[i + 1] && t[1..][i] == t[i + 1];
        }
      }
      TrimStartAlike(s[1..], t[1..]);
    }
  }

  lemma {:induction false} TrimEndAlike(s: string, t: string)
    requires BlankAlike(s, t)
    ensures |TrimEnd(s)| == |TrimEnd(t)|
    decreases |s|
  {
    if |s| > 0 && IsBlank(s[|s| - 1]) {
      assert BlankAlike(s[..|s| - 1], t[..|t| - 1]);
      TrimEndAlike(s[..|s| - 1], t[..|t| - 1]);
    }
  }

  lemma SuffixAlike(s: string, t: string, k: nat)
    requires BlankAlike(s, t) && k <= |s|
    ensures BlankAlike(s[k..], t[k..])
  {
    forall i | 0 <= i < |s| - k ensures IsBlank(s[k..][i]) <==> IsBlank(t[k..][i]) {
      assert s[k..][i] == s[k + i] && t[k..][i] == t[k + i];
    }
  }

  /** Trimming cuts blank-alike strings at the same two places. */
  lemma TrimAlike(s: string, t: string)
    requires BlankAlike(s, t)
    ensures Leading(s) == Leading(t)
    ensures |Trim(s)| == |Trim(t)|
  {
    TrimStartAlike(s, t);
    var k := Leading(s);
    TrimStartSuffix(s);
    TrimStartSuffix(t);
    SuffixAlike(s, t, k);
    TrimEndAlike(s[k..], t[k..]);
  }

  predicate IsUpper(c: char) {
    'A' <= c <= 'Z'
  }

  predicate IsLower(c: char) {
    'a' <= c <= 'z'
  }

  predicate IsDigit(c: char) {
    '0' <= c <= '9'
  }

  function LowerChar(c: char): (d: char)
    ensures !IsUpper(d)
    ensures IsBlank(d) <==> IsBlank(c)
    ensures !IsUpper(c) ==> d == c
  {
    if IsUpper(c) then (c as int + 32) as char else c
  }

  function UpperChar(c: char): (d: char)
    ensures !IsLower(d)
    ensures IsBlank(d) <==> IsBlank(c)
    ensures !IsLower(c) ==> d == c
  {
    if IsLower(c) then (c as int - 32) as char else c
  }

  /** `String.toLowerCase`, restricted to ASCII letters. */
  function Lower(s: string): (r: string)
    ensures |r| == |s|
    ensures forall i :: 0 <= i < |s| ==> r[i] == LowerChar(s[i])
  {
    seq(|s|, i requires 0 <= i < |s| => LowerChar(s[i]))
  }

  /** `String.toUpperCase`, restricted to ASCII letters. */
  function Upper(s: string): (r: string)
    ensures |r| == |s|
    ensures forall i :: 0 <= i < |s| ==> r[i] == UpperChar(s[i])
  {
    seq(|s|, i requires 0 <= i < |s| => UpperChar(s[i]))
  }

  predicate NoUpper(s: string) {
    forall i :: 0 <= i < |s| ==> !IsUpper(s[i])
  }

  /** Lower-casing leaves a string without capitals unchanged. */
  lemma LowerNoUpper(s: string)
    requires NoUpper(s)
    ensures Lower(s) == s
  {
  }

  /** Lower-casing neither creates nor removes a character that is not a
      letter. */
  lemma LowerKeepsOther(s: string, c: char)
    requires !IsUpper(c) && !IsLower(c)
    ensures c in Lower(s) <==> c in s
  {
    if c in s {
      var i :| 0 <= i < |s| && s[i] == c;
      assert Lower(s)[i] == c;
    }
    if c in Lower(s) {
      var i :| 0 <= i < |s| && Lower(s)[i] == c;
      assert s[i] == c;
    }
  }

  lemma LowerSlice(s: string, k: nat, m: nat)
    requires k + m <= |s|
    ensures Lower(s)[k..k + m] == Lower(s[k..k + m])
  {
    var a := Lower(s)[k..k + m];
    var b := s[k..k + m];
    forall i | 0 <= i < m ensures a[i] == LowerChar(b[i]) {
      assert a[i] == Lower(s)[k + i] && b[i] == s[k + i];
    }
  }

  lemma UpperSlice(s: string, k: nat, m: nat)
    requires k + m <= |s|
    ensures Upper(s)[k..k + m] == Upper(s[k..k + m])
  {
    var a := Upper(s)[k..k + m];
    var b := s[k..k + m];
    forall i | 0 <= i < m ensures a[i] == UpperChar(b[i]) {
      assert a[i] == Upper(s)[k + i] && b[i] == s[k + i];
    }
  }

  /** Trimming and lower-casing commute, so the two orders the source uses
      agree. */
  lemma TrimLowerCommute(s: string)
    ensures Trim(Lower(s)) == Lower(Trim(s))
  {
    var l := Lower(s);
    assert BlankAlike(s, l);
    TrimAlike(s, l);
    TrimSlice(s);
    TrimSlice(l);
    LowerSlice(s, Leading(s), |Trim(s)|);
  }

  /** Trimming and upper-casing commute. */
  lemma TrimUpperCommute(s: string)
    ensures Trim(Upper(s)) == Upper(Trim(s))
  {
    var u := Upper(s);
    assert BlankAlike(s, u);
    TrimAlike(s, u);
    TrimSlice(s);
    TrimSlice(u);
    UpperSlice(s, Leading(s), |Trim(s)|);
  }

  /** Lower-casing forgets a prior upper-casing. */
  lemma LowerUpper(s: string)
    ensures Lower(Upper(s)) == Lower(s)
  {
  }

  predicate NoLower(s: string) {
    forall c | c in s :: !IsLower(c)
  }

  /** Upper-casing leaves a string without lower-case letters unchanged. */
  lemma UpperNoLowerId(s: string)
    requires NoLower(s)
    ensures Upper(s) == s
  {
    forall i | 0 <= i < |s| ensures Upper(s)[i] == s[i] {
      assert s[i] in s;
    }
  }

  lemma UpperNoLower(s: string)
    ensures NoLower(Upper(s))
  {
    forall c | c in Upper(s) ensures !IsLower(c) {
      var i :| 0 <= i < |s| && Upper(s)[i] == c;
    }
  }

  predicate StartsWith(s: string, p: string) {
    |p| <= |s| && s[..|p|] == p
  }

  predicate EndsWith(s: string, p: string) {
    |p| <= |s| && s[|s| - |p|..] == p
  }

  /** `pat` occurs in `s` at index `i`. */
  predicate OccursAt(s: string, pat: string, i: int) {
    0 <= i && i + |pat| <= |s| && s[i..i + |pat|] == pat
  }

  lemma OccursAtChars(s: string, pat: string, i: int)
    requires OccursAt(s, pat, i)
    ensures forall j :: 0 <= j < |pat| ==> s[i + j] == pat[j]
  {
    forall j | 0 <= j < |pat| ensures s[i + j] == pat[j] {
      assert s[i..i + |pat|][j] == s[i + j];
    }
  }

  /** What occurs in a string has no character the string lacks. */
  lemma OccursKeeps(s: string, pat: string, i: int, c: char)
    requires OccursAt(s, pat, i) && c !in s
    ensures c !in pat
  {
    OccursAtChars(s, pat, i);
  }

  /** What occurs in a string without capitals has none either. */
  lemma OccursNoUpper(s: string, pat: string, i: int)
    requires OccursAt(s, pat, i) && NoUpper(s)
    ensures NoUpper(pat)
  {
    OccursAtChars(s, pat, i);
  }

  /** What occurs in a prefix occurs at the same place in the whole. */
  lemma OccursInPrefix(full: string, cut: string, pat: string, i: int)
    requires StartsWith(full, cut) && OccursAt(cut, pat, i)
    ensures OccursAt(full, pat, i)
  {
    assert full[i..i + |pat|] == full[..|cut|][i..i + |pat|];
  }

  predicate Contains(s: string, pat: string) {
    exists i | 0 <= i <= |s| :: OccursAt(s, pat, i)
  }

  /** Java's `indexOf(pat, from)`: the first occurrence at or after `from`,
      here `None` where Java answers -1. */
  function IndexOfFrom(s: string, pat: string, from: nat): (r: Option<nat>)
    ensures r.Some? ==> from <= r.value && OccursAt(s, pat, r.value)
    ensures r.Some? ==> forall k :: from <= k < r.value ==> !OccursAt(s, pat, k)
    ensures r.None? ==> forall k :: from <= k ==> !OccursAt(s, pat, k)
    decreases |s| - from
  {
    if from + |pat| > |s| then None
    else if s[from..from + |pat|] == pat then Some(from)
    else IndexOfFrom(s, pat, from + 1)
  }

  function CharIndexOf(s: string, c: char): (r: int)
    ensures -1 <= r < |s|
    ensures r >= 0 ==> s[r] == c && forall k :: 0 <= k < r ==> s[k] != c
    ensures r < 0 ==> forall k :: 0 <= k < |s| ==> s[k] != c
  {
    if c !in s then -1
    else if s[0] == c then 0
    else 1 + CharIndexOf(s[1..], c)
  }

  /** `s.substring(0, s.indexOf(c))` when `c` occurs, `s` itself when it
      does not: the text before the first `c`. */
  function Before(s: string, c: char): (r: string)
    ensures StartsWith(s, r) && c !in r
    ensures c !in s ==> r == s
    ensures c in s ==> |r| < |s| && s[|r|] == c
  {
    var pos := CharIndexOf(s, c);
    if pos < 0 then s else s[..pos]
  }

  /** The text before the first `c` ends where `c` first occurs. */
  lemma BeforeFirst(s: string, c: char, i: nat)
    requires i < |s| && s[i] == c
    requires forall k :: 0 <= k < i ==> s[k] != c
    ensures Before(s, c) == s[..i]
  {
  }

  /** A prefix of a string without capitals has none either. */
  lemma PrefixNoUpper(s: string, p: string)
    requires NoUpper(s) && StartsWith(s, p)
    ensures NoUpper(p)
  {
    forall i | 0 <= i < |p| ensures !IsUpper(p[i]) {
      assert p[i] == s[..|p|][i] == s[i];
    }
  }

  /** Java's `lastIndexOf(c)`: -1 when `c` does not occur. */
  function LastIndexOf(s: string, c: char): (r: int)
    ensures -1 <= r < |s|
    ensures r >= 0 ==> s[r] == c && forall k :: r < k < |s| ==> s[k] != c
    ensures r < 0 ==> forall k :: 0 <= k < |s| ==> s[k] != c
    decreases |s|
  {
    if |s| == 0 then -1
    else if s[|s| - 1] == c then |s| - 1
    else LastIndexOf(s[..|s| - 1], c)
  }

  /** `String.length()` counts UTF-16 code units: a character outside the
      Basic Multilingual Plane is a surrogate pair and counts twice. */
  function Utf16Length(s: string): (r: nat)
    ensures |s| <= r <= 2 * |s|
    ensures r == |s| <==> forall i :: 0 <= i < |s| ==> s[i] as int <= 0xFFFF
    decreases |s|
  {
    if s == [] then 0
    else
      assert forall i :: 0 < i < |s| ==> s[1..][i - 1] == s[i];
      (if s[0] as int > 0xFFFF then 2 else 1) + Utf16Length(s[1..])
  }

  /** One emoji is one character but two code units. */
  lemma Utf16LengthOfEmoji()
    ensures |"\U{1F600}"| == 1 && Utf16Length("\U{1F600}") == 2
  {
  }
}

=== FILE: keyedstore.dfy ===
/** The term index and the citation index are both `IndexCell`s: a map from
    a 12-character hash to the ordered container of entries appended under
    it. The persistence behind them is not part of this model; here an index
    is a plain map and a missing key reads as an empty container. */
module KeyedStore {

  type Hash = string

  type Index<E> = map<Hash, seq<E>>

  function Lookup<E>(idx: Index<E>, h: Hash): seq<E> {
    if h in idx then idx[h] else []
  }

  /** `IndexCell.add(hash, entry)`: the entry goes to the end of its container. */
  function Add<E>(idx: Index<E>, h: Hash, e: E): (r: Index<E>)
    ensures Lookup(r, h) == Lookup(idx, h) + [e]
    ensures forall k :: k != h ==> Lookup(r, k) == Lookup(idx, k)
  {
    idx[h := Lookup(idx, h) + [e]]
  }

  /** Appends a batch of (hash, entry) pairs in order. */
  function AddAll<E>(idx: Index<E>, es: seq<(Hash, E)>): Index<E>
    decreases |es|
  {
    if es == [] then idx else AddAll(Add(idx, es[0].0, es[0].1), es[1..])
  }

  /** The entries of a batch that are filed under `h`, in batch order. */
  function Under<E>(es: seq<(Hash, E)>, h: Hash): (r: seq<E>)
    ensures |r| <= |es|
    decreases |es|
  {
    if es == [] then []
    else (if es[0].0 == h then [es[0].1] else []) + Under(es[1..], h)
  }

  lemma UnderAppend<E>(a: seq<(Hash, E)>, b: seq<(Hash, E)>, h: Hash)
    ensures Under(a + b, h) == Under(a, h) + Under(b, h)
    decreases |a|
  {
    if a != [] {
      assert (a + b)[0] == a[0];
      assert (a + b)[1..] == a[1..] + b;
      UnderAppend(a[1..], b, h);
      var head := if a[0].0 == h then [a[0].1] else [];
      assert Under(a + b, h) == head + (Under(a[1..], h) + Under(b, h));
      Assoc(head, Under(a[1..], h), Under(b, h));
    } else {
      assert a + b == b;
    }
  }

  lemma Assoc<T>(a: seq<T>, b: seq<T>, c: seq<T>)
    ensures (a + b) + c == a + (b + c)
  {
  }

  /** A batch append extends every container by exactly the batch entries
      filed under its key, in order, and nothing else. */
  lemma {:induction false} AddAllLookup<E>(idx: Index<E>, es: seq<(Hash, E)>, h: Hash)
    ensures Lookup(AddAll(idx, es), h) == Lookup(idx, h) + Under(es, h)
    decreases |es|
  {
    if es != [] {
      var idx' := Add(idx, es[0].0, es[0].1);
      var head := if es[0].0 == h then [es[0].1] else [];
      AddAllLookup(idx', es[1..], h);
      assert Lookup(idx', h) == Lookup(idx, h) + head;
      assert Under(es, h) == head + Under(es[1..], h);
      Assoc(Lookup(idx, h), head, Under(es[1..], h));
    }
  }

  /** Whatever a batch files under `h` comes from a batch entry keyed `h`. */
  lemma {:induction false} UnderFrom<E>(es: seq<(Hash, E)>, h: Hash)
    ensures forall x :: x in Under(es, h) ==> (h, x) in es
    decreases |es|
  {
    if es != [] {
      UnderFrom(es[1..], h);
      forall x | x in Under(es, h) ensures (h, x) in es {
        if x !in Under(es[1..], h) {
          assert es[0] == (h, x);
        } else {
          assert (h, x) in es[1..];
        }
      }
    }
  }
}

=== FILE: language.dfy ===
/** The three-signal language vote of `Segment.votedLanguage`. */
module Language {

  import opened Base
  import opened JavaText

  /** The lower-cased normalized URL has a `/<tag>/` path segment. */
  predicate UrlHints(urlNormalform: string, tag: string) {
    Contains(Lower(urlNormalform), "/" + tag + "/")
  }

  /** The URL confirms the statistical guess `s`: it has a `/s/` segment or a
      segment naming the country `s` belongs to (lower-cased). */
  predicate UrlConfirms(urlNormalform: string, s: string, country: string -> string) {
    UrlHints(urlNormalform, s) || UrlHints(urlNormalform, Lower(country(s)))
  }

  /** Reference rule for three present signals: whenever two agree, their
      value wins; when all three differ, the declared metadata wins. */
  function Majority(s: string, m: string, t: string): string {
    if s == m || s == t then s else m
  }

  /** The voted language. `statistic` is the classifier's guess over the text,
      `metadata` the language the document declares, `tld` the language of the
      URL's top-level domain (always known). */
  function VotedLanguage(statistic: Option<string>, metadata: Option<string>, tld: string,
                         urlNormalform: string, country: string -> string): (r: string)
    // the result is always one of the signals
    ensures r == tld || (metadata.Some? && r == metadata.value)
            || (statistic.Some? && r == statistic.value)
    // no statistic: metadata when declared, else the TLD
    ensures statistic.None? && metadata.Some? ==> r == metadata.value
    ensures statistic.None? && metadata.None? ==> r == tld
    // statistic only: it survives exactly when the TLD or the URL confirms it
    ensures statistic.Some? && metadata.None? ==>
              (r == statistic.value <==> statistic.value == tld
                                         || UrlConfirms(urlNormalform, statistic.value, country))
    ensures statistic.Some? && metadata.None? && r != statistic.value ==> r == tld
    // all three present: majority, ties broken in favour of the metadata
    ensures statistic.Some? && metadata.Some? ==>
              r == Majority(statistic.value, metadata.value, tld)
  {
    match statistic
    case None =>
      if metadata.None? then tld else metadata.value
    case Some(s) =>
      if metadata.None? then
        if s != tld && !UrlConfirms(urlNormalform, s, country) then tld else s
      else
        var m := metadata.value;
        if s == m then s
        else if s == tld then s
        else if m == tld then m
        else m
  }

  /** Any two agreeing signals decide the vote when all three are present. */
  lemma MajorityDecides(s: string, m: string, t: string, u: string, country: string -> string)
    ensures (s == m || s == t) ==> VotedLanguage(Some(s), Some(m), t, u, country) == s
    ensures m == t ==> VotedLanguage(Some(s), Some(m), t, u, country) == m
    ensures s != m && s != t && m != t ==> VotedLanguage(Some(s), Some(m), t, u, country) == m
  {
  }

  /** The worked examples: English statistics on a German TLD survive only
      with an `/en/` hint, and a three-way disagreement takes the metadata. */
  lemma VoteExamples(country: string -> string, hinted: string, plain: string)
    requires country("en") == "England"
    requires hinted == "http://a.de/en/x" && plain == "http://a.de/x"
    ensures VotedLanguage(Some("en"), None, "de", hinted, country) == "en"
    ensures VotedLanguage(Some("en"), None, "de", plain, country) == "de"
    ensures VotedLanguage(Some("en"), Some("fr"), "de", plain, country) == "fr"
  {
    assert UrlHints(hinted, "en") by {
      assert NoUpper(hinted) by {
        forall i | 0 <= i < |hinted| ensures !IsUpper(hinted[i]) {
        }
      }
      LowerNoUpper(hinted);
      assert "/" + "en" + "/" == "/en/";
      assert OccursAt(hinted, "/en/", 11);
    }
    assert !UrlConfirms(plain, "en", country) by {
      assert NoUpper(plain) by {
        forall i | 0 <= i < |plain| ensures !IsUpper(plain[i]) {
        }
      }
      LowerNoUpper(plain);
      assert forall i :: 0 <= i < |plain| - 1 ==> !(plain[i] == '/' && plain[i + 1] == 'e');
      NoSlashE(plain, "/" + "en" + "/");
      var c := Lower(country("en"));
      assert c[0] == 'e';
      NoSlashE(plain, "/" + c + "/");
    }
    MajorityDecides("en", "fr", "de", plain, country);
  }

  /** A string with no `/` right before an `e` holds no pattern that starts
      with `/e`. */
  lemma NoSlashE(l: string, pat: string)
    requires |pat| >= 2 && pat[0] == '/' && pat[1] == 'e'
    requires forall i :: 0 <= i < |l| - 1 ==> !(l[i] == '/' && l[i + 1] == 'e')
    ensures !Contains(l, pat)
  {
    forall i | 0 <= i <= |l| ensures !OccursAt(l, pat, i) {
      if i + |pat| <= |l| {
        assert l[i..i + |pat|][0] == l[i] && l[i..i + |pat|][1] == l[i + 1];
      }
    }
  }
}

=== FILE: mimetypes.dfy ===
/** MIME-type normalisation and file-extension extraction of `plasmaParser`. */
module MimeTypes {

  import opened Base
  import opened JavaText

  /** What an unknown MIME type defaults to. */
  const DefaultMimeType: string := "application/octet-stream"

  /** The header value the normalisation starts from. */
  function Given(mimeType: Option<string>): string {
    if mimeType.None? then DefaultMimeType else mimeType.value
  }

  /** `normalizeMimeType` as the source writes it: trim, lower-case, then cut
      before the first `;`. Blanks before the `;` survive the cut. */
  function NormalizeMimeTypeAsWritten(mimeType: Option<string>): (r: string)
    ensures ';' !in r && NoUpper(r)
    ensures StartsWith(Lower(Trim(Given(mimeType))), r)
    ensures ';' !in Trim(Given(mimeType)) ==> r == Lower(Trim(Given(mimeType)))
    ensures var m := Lower(Trim(Given(mimeType))); ';' in m ==> |r| < |m| && m[|r|] == ';'
  {
    var m := Lower(Trim(Given(mimeType)));
    LowerKeepsOther(Trim(Given(mimeType)), ';');
    PrefixNoUpper(m, Before(m, ';'));
    Before(m, ';')
  }

  /** A legal header value with a blank before its parameters normalizes to
      a type with a trailing blank, which no trimmed set entry matches. */
  lemma BlankBeforeParameterSurvives(t: string, params: string)
    requires t == "text/html "
    requires |params| > 0 && params[0] == ';' && !IsBlank(params[|params| - 1])
    ensures NormalizeMimeTypeAsWritten(Some(t + params)) == t
  {
    assert NoUpper(t) by {
      forall i | 0 <= i < |t| ensures !IsUpper(t[i]) {
      }
    }
    CutAtParameters(t, params);
  }

  /** The written normalisation of a type without capitals followed by
      parameters returns the type untouched, blanks included. */
  lemma CutAtParameters(t: string, params: string)
    requires |t| > 0 && !IsBlank(t[0]) && NoUpper(t) && ';' !in t
    requires |params| > 0 && params[0] == ';' && !IsBlank(params[|params| - 1])
    ensures NormalizeMimeTypeAsWritten(Some(t + params)) == t
  {
    var h := t + params;
    assert Before(Lower(h), ';') == t by {
      LowerPrefix(t, params);
      var m := Lower(h);
      forall k | 0 <= k < |t| ensures m[k] != ';' {
        assert m[k] == m[..|t|][k] == t[k];
      }
      BeforeFirst(m, ';', |t|);
    }
    TrimJoined(t, params);
  }

  /** A string whose first part starts and whose second part ends with a
      non-blank is left alone by trimming. */
  lemma TrimJoined(t: string, params: string)
    requires |t| > 0 && !IsBlank(t[0])
    requires |params| > 0 && !IsBlank(params[|params| - 1])
    ensures Trim(t + params) == t + params
  {
    var h := t + params;
    assert h[0] == t[0] && h[|h| - 1] == params[|params| - 1];
    TrimTidy(h);
  }

  /** Lower-casing a string that begins with a part without capitals keeps
      that part. */
  lemma LowerPrefix(t: string, rest: string)
    requires NoUpper(t)
    ensures Lower(t + rest)[..|t|] == t
    ensures |rest| > 0 ==> Lower(t + rest)[|t|] == LowerChar(rest[0])
  {
    LowerSlice(t + rest, 0, |t|);
    assert (t + rest)[0..|t|] == t;
    LowerNoUpper(t);
  }

  /** Normalizing that result again gives a different answer: the written
      normalisation is not a normal form. */
  lemma AsWrittenNotIdempotent(u: string)
    requires u == "text/html "
    ensures NormalizeMimeTypeAsWritten(Some(u)) == "text/html"
  {
    TrimOneBlank(u);
    var v := u[..9];
    assert v == "text/html";
    assert NoUpper(v) by {
      forall i | 0 <= i < |v| ensures !IsUpper(v[i]) {
      }
    }
    LowerNoUpper(v);
    assert ';' !in v;
  }

  /** Trimming a string with one trailing blank and a letter before it drops
      just that blank. */
  lemma TrimOneBlank(u: string)
    requires |u| >= 2 && !IsBlank(u[0]) && IsBlank(u[|u| - 1]) && !IsBlank(u[|u| - 2])
    ensures Trim(u) == u[..|u| - 1]
  {
    assert TrimStart(u) == u;
    assert TrimEnd(u[..|u| - 1]) == u[..|u| - 1];
  }

  /** `normalizeMimeType` with the blanks around the cut-off type removed as
      well: the bare, lower-case type the MIME-type sets hold. */
  function NormalizeMimeType(mimeType: Option<string>): (r: string)
    ensures ';' !in r && NoUpper(r) && Tidy(r)
    ensures Contains(Lower(Trim(Given(mimeType))), r)
  {
    var cut := NormalizeMimeTypeAsWritten(mimeType);
    var r := Trim(cut);
    TrimOccurs(cut);
    OccursKeeps(cut, r, Leading(cut), ';');
    OccursNoUpper(cut, r, Leading(cut));
    OccursInPrefix(Lower(Trim(Given(mimeType))), cut, r, Leading(cut));
    r
  }

  /** The corrected normalisation is a normal form: applying it again
      changes nothing. */
  lemma NormalizeMimeTypeIdempotent(mimeType: Option<string>)
    ensures NormalizeMimeType(Some(NormalizeMimeType(mimeType))) == NormalizeMimeType(mimeType)
  {
    var r := NormalizeMimeType(mimeType);
    TrimTidy(r);
    LowerNoUpper(r);
    assert NormalizeMimeTypeAsWritten(Some(r)) == r;
  }

  /** The corrected normalisation returns the bare type of a header value
      whose parameters follow the type after any number of blanks, such as
      `text/html ; charset=utf-8`. */
  lemma NormalizeMimeTypeBareType(t: string, bs: string, params: string)
    requires t != [] && Tidy(t) && NoUpper(t) && ';' !in t
    requires forall i :: 0 <= i < |bs| ==> IsBlank(bs[i])
    requires params != [] && params[0] == ';'
    ensures NormalizeMimeType(Some(t + bs + params)) == t
  {
    var h := t + bs + params;
    var c := |t| + |bs|;
    assert Before(Lower(Trim(h)), ';') == t + bs by {
      assert h[0] == t[0] && h[c] == ';';
      assert TrimStart(h) == h;
      TrimEndKeeps(h, c);
      TrimEndIsPrefix(h);
      var m := Lower(Trim(h));
      forall k | 0 <= k < c ensures m[k] == h[k] && m[k] != ';' {
        if k < |t| {
          assert h[k] == t[k];
        } else {
          assert h[k] == bs[k - |t|];
        }
      }
      BeforeFirst(m, ';', c);
      SamePrefix(m, h, c);
      JoinPrefix(t, bs, params);
    }
    TrimEndBlanks(t, bs);
    assert (t + bs)[0] == t[0];
  }

  lemma SamePrefix(m: string, h: string, c: nat)
    requires c <= |m| && c <= |h| && forall k :: 0 <= k < c ==> m[k] == h[k]
    ensures m[..c] == h[..c]
  {
  }

  lemma JoinPrefix(a: string, b: string, c: string)
    ensures (a + b + c)[..|a| + |b|] == a + b
  {
  }

  /** The corrected and the written normalisation agree whenever no blank
      precedes the parameters. */
  lemma NormalizeMimeTypeAgrees(mimeType: Option<string>)
    requires Tidy(NormalizeMimeTypeAsWritten(mimeType))
    ensures NormalizeMimeType(mimeType) == NormalizeMimeTypeAsWritten(mimeType)
  {
    TrimTidy(NormalizeMimeTypeAsWritten(mimeType));
  }

  /** `HTMLParsableMimeTypesContains`, on the corrected normalisation. It
      answers as the written lookup does unless a blank precedes the
      parameters, and a missing type is looked up as the default type. */
  function HtmlMimeTypeContains(htmlMimeTypes: set<string>, mimeType: Option<string>): (r: bool)
    ensures Tidy(NormalizeMimeTypeAsWritten(mimeType)) ==>
              (r <==> NormalizeMimeTypeAsWritten(mimeType) in htmlMimeTypes)
    ensures mimeType.None? ==> (r <==> DefaultMimeType in htmlMimeTypes)
  {
    assert Tidy(NormalizeMimeTypeAsWritten(mimeType)) ==>
             NormalizeMimeType(mimeType) == NormalizeMimeTypeAsWritten(mimeType) by {
      if Tidy(NormalizeMimeTypeAsWritten(mimeType)) {
        NormalizeMimeTypeAgrees(mimeType);
      }
    }
    assert mimeType.None? ==> NormalizeMimeType(mimeType) == DefaultMimeType by {
      if mimeType.None? {
        DefaultNormal();
      }
    }
    NormalizeMimeType(mimeType) in htmlMimeTypes
  }

  /** The default type is its own normal form. */
  lemma DefaultNormal()
    ensures NormalizeMimeType(None) == DefaultMimeType
  {
    var d := DefaultMimeType;
    DefaultShape();
    TrimTidy(d);
    LowerNoUpper(d);
    assert NormalizeMimeTypeAsWritten(None) == d;
  }

  lemma DefaultShape()
    ensures Tidy(DefaultMimeType) && NoUpper(DefaultMimeType) && ';' !in DefaultMimeType
  {
    var d := DefaultMimeType;
    forall i | 0 <= i < |d| ensures !IsUpper(d[i]) && d[i] != ';' {
    }
  }

  // ---------------------------------------------------------------------
  // file extensions

  /** `getFileExt` applied to a URL path: the text after the last `.` of the
      last path segment, or empty. */
  function FileExt(path: string): (r: string)
    ensures '/' !in r && '.' !in r
    ensures EndsWith(path, r)
    ensures r != [] ==> EndsWith(path, "." + r)
  {
    var n := SegmentStart(path);
    var name := path[n..];
    var q := LastIndexOf(name, '.');
    if q < 0 then []
    else
      NameTail(path, n, q);
      name[q + 1..]
  }

  /** Where the last path segment starts: at its `/`, or at 0 when the path
      has none. */
  function SegmentStart(path: string): (n: nat)
    ensures n <= |path|
    ensures forall i :: n < i < |path| ==> path[i] != '/'
    ensures n < |path| && n > 0 ==> path[n] == '/'
  {
    var p := LastIndexOf(path, '/');
    if p != -1 then p else 0
  }

  /** The tail of the last segment after its dot is a tail of the path. */
  lemma NameTail(path: string, n: nat, q: nat)
    requires n + q < |path| && path[n..][q] == '.'
    ensures path[n..][q + 1..] == path[n + q + 1..]
    ensures "." + path[n..][q + 1..] == path[n + q..]
  {
    assert path[n..][q + 1..] == path[n + q + 1..];
    assert path[n + q..] == [path[n + q]] + path[n + q + 1..];
  }

  /** No `.` follows position `p`. */
  predicate NoDotAfter(path: string, p: int) {
    forall i :: 0 <= i < |path| && p < i ==> path[i] != '.'
  }

  /** The extension is empty exactly when the last path segment has no `.`
      or ends with one. */
  lemma FileExtEmpty(path: string)
    ensures FileExt(path) == [] <==> NoDotAfter(path, LastIndexOf(path, '/')) || EndsWith(path, ".")
  {
    var p := LastIndexOf(path, '/');
    var n := SegmentStart(path);
    assert n == (if p != -1 then p else 0);
    var name := path[n..];
    var q := LastIndexOf(name, '.');
    if q < 0 {
      NoDotInSegment(path, p, n);
    } else {
      DotInSegment(path, p, n, q);
      assert FileExt(path) == name[q + 1..];
    }
  }

  /** The last dot of the last segment lies after the last slash, and ends
      the path exactly when the path ends with a dot. */
  lemma DotInSegment(path: string, p: int, n: nat, q: nat)
    requires -1 <= p < |path| && n == (if p != -1 then p else 0)
    requires p != -1 ==> path[p] == '/'
    requires n + q < |path| && path[n..][q] == '.'
    requires forall k :: q < k < |path| - n ==> path[n..][k] != '.'
    ensures !NoDotAfter(path, p)
    ensures q == |path| - n - 1 <==> EndsWith(path, ".")
  {
    LastDot(path, n, q);
    assert p < n + q by {
      if p != -1 {
        assert path[n..][0] == path[p];
      }
    }
    assert path[n + q] == path[n..][q];
  }

  /** A last segment without a dot leaves no dot after the last slash. */
  lemma NoDotInSegment(path: string, p: int, n: nat)
    requires -1 <= p < |path| && n == (if p != -1 then p else 0)
    requires forall k :: 0 <= k < |path| - n ==> path[n..][k] != '.'
    ensures NoDotAfter(path, p)
  {
    forall i | p < i < |path| ensures path[i] != '.' {
      assert path[n..][i - n] == path[i];
    }
  }

  /** The last dot of the last segment ends the path exactly when the path
      ends with a dot. */
  lemma LastDot(path: string, n: nat, q: nat)
    requires n + q < |path| && path[n..][q] == '.'
    requires forall k :: q < k < |path| - n ==> path[n..][k] != '.'
    ensures q == |path| - n - 1 <==> EndsWith(path, ".")
  {
    assert path[n..][|path| - n - 1] == path[|path| - 1];
    assert path[|path| - 1..] == [path[|path| - 1]];
  }
}

=== FILE: segment.dfy ===
/** The data model of `Segment`: postings, citations, full-text records, the
    three stores a segment holds, and the segment's own small operations
    (connect/disconnect guards, direct posting writes, the query count,
    clearing, and the index cell's batch removal used by deletion). */
module SegmentModel {

  import opened Base
  import opened JavaText
  import opened KeyedStore

  /** A word every document contains; its postings serve zero-word searches. */
  const CatchallString: string := "yacyall"

  /** Per-word statistics of the text statistics collaborator. */
  datatype Word = Word(posInText: int, posInPhrase: int, numOfPhrase: int, flags: seq<bool>)

  /** The properties the catch-all posting gets when a document has no words:
      `new Word(0, 0, 0)` with a 4-bit flag field, every bit set. */
  const CatchallWord: Word := Word(0, 0, 0, [true, true, true, true])

  /** One row of the term index: the document-level fields of the posting
      prototype plus the properties of the word it is filed under. */
  datatype Posting = Posting(
    urlHash: Hash,
    urlLength: nat,
    urlComps: nat,
    titleLength: nat,
    wordCount: nat,
    sentenceCount: nat,
    lastModified: int,
    updated: int,
    language: string,
    docType: char,
    outlinksSame: nat,
    outlinksOther: nat,
    word: Word)

  /** One row of the citation index, filed under the cited URL's hash. */
  datatype Citation = Citation(citing: Hash, date: int)

  /** What the model needs of a `DigestURI`: its hash, its normal form, the
      language of its top-level domain and its number of path components. */
  datatype Url = Url(hash: Hash, normalForm: string, tldLanguage: string, comps: nat)

  /** The full-text (Solr) record of a URL. A stored record can lack its URL. */
  datatype Record = Record(id: Hash, url: Option<Url>, title: string, language: string, referrer: Option<Url>)

  /** The term index and the citation index may be disconnected (`null`);
      the full-text store is always there. */
  datatype Segment = Segment(
    termIndex: Option<Index<Posting>>,
    citationIndex: Option<Index<Citation>>,
    fulltext: map<Hash, Record>)

  /** Lookup in a possibly disconnected index. */
  function Postings(seg: Segment, h: Hash): seq<Posting> {
    if seg.termIndex.None? then [] else Lookup(seg.termIndex.value, h)
  }

  function Citations(seg: Segment, h: Hash): seq<Citation> {
    if seg.citationIndex.None? then [] else Lookup(seg.citationIndex.value, h)
  }

  // ---------------------------------------------------------------------
  // connect / disconnect

  /** `connectRWI`: a connected term index is left alone; otherwise the cell
      opens with whatever its files hold (`stored`). */
  function ConnectRWI(seg: Segment, stored: Index<Posting>): (r: Segment)
    ensures r.termIndex.Some?
    ensures seg.termIndex.Some? ==> r == seg
    ensures seg.termIndex.None? ==> r.termIndex == Some(stored)
    ensures r.citationIndex == seg.citationIndex && r.fulltext == seg.fulltext
  {
    if seg.termIndex.Some? then seg else seg.(termIndex := Some(stored))
  }

  /** `disconnectRWI`: closes the cell; closing twice is harmless. */
  function DisconnectRWI(seg: Segment): (r: Segment)
    ensures r.termIndex.None?
    ensures r.citationIndex == seg.citationIndex && r.fulltext == seg.fulltext
  {
    seg.(termIndex := None)
  }

  function ConnectCitation(seg: Segment, stored: Index<Citation>): (r: Segment)
    ensures r.citationIndex.Some?
    ensures seg.citationIndex.Some? ==> r == seg
    ensures seg.citationIndex.None? ==> r.citationIndex == Some(stored)
    ensures r.termIndex == seg.termIndex && r.fulltext == seg.fulltext
  {
    if seg.citationIndex.Some? then seg else seg.(citationIndex := Some(stored))
  }

  function DisconnectCitation(seg: Segment): (r: Segment)
    ensures r.citationIndex.None?
    ensures r.termIndex == seg.termIndex && r.fulltext == seg.fulltext
  {
    seg.(citationIndex := None)
  }

  /** Connecting twice is connecting once, whatever the second call would
      have opened; disconnecting twice is disconnecting once; a disconnect
      followed by a reconnect to the flushed contents restores the segment. */
  lemma ConnectionGuards(seg: Segment, a: Index<Posting>, b: Index<Posting>,
                         c: Index<Citation>, d: Index<Citation>)
    ensures ConnectRWI(ConnectRWI(seg, a), b) == ConnectRWI(seg, a)
    ensures DisconnectRWI(DisconnectRWI(seg)) == DisconnectRWI(seg)
    ensures ConnectCitation(ConnectCitation(seg, c), d) == ConnectCitation(seg, c)
    ensures DisconnectCitation(DisconnectCitation(seg)) == DisconnectCitation(seg)
    ensures seg.termIndex.Some? ==> ConnectRWI(DisconnectRWI(seg), seg.termIndex.value) == seg
    ensures seg.citationIndex.Some? ==>
              ConnectCitation(DisconnectCitation(seg), seg.citationIndex.value) == seg
  {
  }

  // ---------------------------------------------------------------------
  // direct writes

  /** `storeRWI(termHash, entry)`: a no-op on a disconnected index; a full
      write buffer raises `SpaceExceededException` to the caller. */
  function StoreRWI(seg: Segment, h: Hash, p: Posting, bufferFull: bool): (r: Result<Segment>)
    ensures seg.termIndex.None? ==> r == Success(seg)
    ensures seg.termIndex.Some? && bufferFull ==> r == Failure(SpaceExceeded)
    ensures r.Success? ==> r.value.fulltext == seg.fulltext
                           && r.value.citationIndex == seg.citationIndex
                           && r.value.termIndex.Some? == seg.termIndex.Some?
    ensures r.Success? && seg.termIndex.Some? ==>
              Postings(r.value, h) == Postings(seg, h) + [p]
              && forall k :: k != h ==> Postings(r.value, k) == Postings(seg, k)
  {
    if seg.termIndex.None? then Success(seg)
    else if bufferFull then Failure(SpaceExceeded)
    else Success(seg.(termIndex := Some(Add(seg.termIndex.value, h, p))))
  }

  /** `storeRWI(container)`: the whole container is appended under its term. */
  function StoreRWIContainer(seg: Segment, h: Hash, ps: seq<Posting>, bufferFull: bool): (r: Result<Segment>)
    ensures seg.termIndex.None? ==> r == Success(seg)
    ensures seg.termIndex.Some? && bufferFull ==> r == Failure(SpaceExceeded)
    ensures r.Success? ==> r.value.fulltext == seg.fulltext
                           && r.value.citationIndex == seg.citationIndex
    ensures r.Success? && seg.termIndex.Some? ==>
              Postings(r.value, h) == Postings(seg, h) + ps
              && forall k :: k != h ==> Postings(r.value, k) == Postings(seg, k)
  {
    if seg.termIndex.None? then Success(seg)
    else if bufferFull then Failure(SpaceExceeded)
    else
      var idx := seg.termIndex.value;
      Success(seg.(termIndex := Some(idx[h := Lookup(idx, h) + ps])))
  }

  // ---------------------------------------------------------------------
  // counters

  /** Words with a field separator, a blank or a slash are not looked up. */
  predicate Queryable(word: string) {
    ':' !in word && ' ' !in word && '/' !in word
  }

  /** `getQueryCount(word)`: the term-index container size plus the full-text
      hit count; `solrCount` is `None` when the full-text query fails, which
      the source swallows. */
  function QueryCount(seg: Segment, word: Option<string>, wordHash: string -> Hash,
                      solrCount: Option<nat>): (r: nat)
    ensures word.None? || !Queryable(word.value) ==> r == 0
    ensures word.Some? && Queryable(word.value) ==>
              r == |Postings(seg, wordHash(word.value))| + (if solrCount.Some? then solrCount.value else 0)
  {
    if word.None? || !Queryable(word.value) then 0
    else
      var rwi := if seg.termIndex.None? then 0 else |Lookup(seg.termIndex.value, wordHash(word.value))|;
      rwi + (if solrCount.Some? then solrCount.value else 0)
  }

  /** A successful direct write is visible to the next query count. */
  lemma StoreRWIRaisesQueryCount(seg: Segment, word: string, wordHash: string -> Hash, p: Posting,
                                 solrCount: Option<nat>)
    requires seg.termIndex.Some? && Queryable(word)
    ensures StoreRWI(seg, wordHash(word), p, false).Success?
    ensures QueryCount(StoreRWI(seg, wordHash(word), p, false).value, Some(word), wordHash, solrCount)
            == QueryCount(seg, Some(word), wordHash, solrCount) + 1
  {
  }

  // ---------------------------------------------------------------------
  // clear

  /** `clear()`: empties the term index, the full-text store and the citation
      index in that order, skipping a disconnected index. `failAt` names the
      step (0, 1 or 2) whose clear raises an `IOException`; the exception is
      caught once for all three, so that step and the later ones are
      skipped. A step that does not run cannot raise anything. */
  function Clear(seg: Segment, failAt: Option<nat>): (r: Segment)
    ensures r.termIndex.Some? == seg.termIndex.Some? && r.citationIndex.Some? == seg.citationIndex.Some?
    ensures ClearReaches(seg, failAt, 0) ==> forall h :: Postings(r, h) == []
    ensures !ClearReaches(seg, failAt, 0) ==> r.termIndex == seg.termIndex
    ensures ClearReaches(seg, failAt, 1) ==> r.fulltext == map[]
    ensures !ClearReaches(seg, failAt, 1) ==> r.fulltext == seg.fulltext
    ensures ClearReaches(seg, failAt, 2) ==> forall h :: Citations(r, h) == []
    ensures !ClearReaches(seg, failAt, 2) ==> r.citationIndex == seg.citationIndex
  {
    var f := ClearFault(seg, failAt);
    var s0 := if seg.termIndex.Some? && f != Some(0) then seg.(termIndex := Some(map[])) else seg;
    var s1 := if f == Some(0) || f == Some(1) then s0 else s0.(fulltext := map[]);
    if f.Some? then s1
    else if s1.citationIndex.Some? then s1.(citationIndex := Some(map[])) else s1
  }

  /** The step of `clear` that raises, if any: the step `failAt` names,
      provided it runs. */
  function ClearFault(seg: Segment, failAt: Option<nat>): Option<nat> {
    if failAt == Some(0) && seg.termIndex.Some? then Some(0)
    else if failAt == Some(1) then Some(1)
    else if failAt == Some(2) && seg.citationIndex.Some? then Some(2)
    else None
  }

  /** Step `k` of `clear` completes: no step up to and including it raises. */
  predicate ClearReaches(seg: Segment, failAt: Option<nat>, k: nat) {
    var f := ClearFault(seg, failAt);
    f.None? || f.value > k
  }

  /** Clearing again, even when a step of the second clear fails, leaves a
      cleared segment as it is; a full clear after a failed one finishes the
      job; and after a clear the query count is the full-text count alone. */
  lemma ClearIdempotent(seg: Segment, failAt: Option<nat>, word: string, wordHash: string -> Hash,
                        solrCount: Option<nat>)
    ensures Clear(Clear(seg, None), failAt) == Clear(seg, None)
    ensures Clear(Clear(seg, failAt), None) == Clear(seg, None)
    ensures QueryCount(Clear(seg, None), Some(word), wordHash, solrCount)
            == if Queryable(word) && solrCount.Some? then solrCount.value else 0
  {
  }

  // ---------------------------------------------------------------------
  // batch removal (`IndexCell.remove(termHashes, urlHash)`)

  /** The container without the postings of URL `u`, order kept. */
  function Untagged(ps: seq<Posting>, u: Hash): (r: seq<Posting>)
    ensures |r| <= |ps|
    ensures forall i :: 0 <= i < |r| ==> r[i].urlHash != u
    decreases |ps|
  {
    if ps == [] then []
    else (if ps[0].urlHash == u then [] else [ps[0]]) + Untagged(ps[1..], u)
  }

  /** The postings of URL `u` in a container. */
  function Tagged(ps: seq<Posting>, u: Hash): (r: seq<Posting>)
    ensures forall i :: 0 <= i < |r| ==> r[i].urlHash == u
    decreases |ps|
  {
    if ps == [] then []
    else (if ps[0].urlHash == u then [ps[0]] else []) + Tagged(ps[1..], u)
  }

  /** Removing a URL's postings removes exactly its tagged postings. */
  lemma {:induction false} UntaggedSplit(ps: seq<Posting>, u: Hash)
    ensures |Untagged(ps, u)| + |Tagged(ps, u)| == |ps|
    ensures multiset(Untagged(ps, u)) + multiset(Tagged(ps, u)) == multiset(ps)
    decreases |ps|
  {
    if ps != [] {
      var t := ps[1..];
      UntaggedSplit(t, u);
      SplitHead(ps, u);
      assert ps == [ps[0]] + t;
    }
  }

  /** The first posting goes to exactly one of the two sides. */
  lemma SplitHead(ps: seq<Posting>, u: Hash)
    requires ps != []
    ensures |Untagged(ps, u)| + |Tagged(ps, u)| == 1 + |Untagged(ps[1..], u)| + |Tagged(ps[1..], u)|
    ensures multiset(Untagged(ps, u)) + multiset(Tagged(ps, u))
         == multiset{ps[0]} + multiset(Untagged(ps[1..], u)) + multiset(Tagged(ps[1..], u))
  {
    var t := ps[1..];
    if ps[0].urlHash == u {
      assert Untagged(ps, u) == Untagged(t, u);
      assert Tagged(ps, u) == [ps[0]] + Tagged(t, u);
    } else {
      assert Untagged(ps, u) == [ps[0]] + Untagged(t, u);
      assert Tagged(ps, u) == Tagged(t, u);
    }
  }

  lemma {:induction false} UntaggedAppend(a: seq<Posting>, b: seq<Posting>, u: Hash)
    ensures Untagged(a + b, u) == Untagged(a, u) + Untagged(b, u)
    decreases |a|
  {
    if a == [] {
      assert a + b == b;
    } else {
      assert (a + b)[0] == a[0];
      assert (a + b)[1..] == a[1..] + b;
      UntaggedAppend(a[1..], b, u);
    }
  }

  /** A container holding no posting of `u` is left as it is. */
  lemma {:induction false} UntaggedNone(ps: seq<Posting>, u: Hash)
    requires forall i :: 0 <= i < |ps| ==> ps[i].urlHash != u
    ensures Untagged(ps, u) == ps
    decreases |ps|
  {
    if ps != [] {
      UntaggedNone(ps[1..], u);
      assert ps == [ps[0]] + ps[1..];
    }
  }

  predicate NoDuplicates(hs: seq<Hash>) {
    forall i, j :: 0 <= i < j < |hs| ==> hs[i] != hs[j]
  }

  /** `Word.words2hashesHandles`: the set of term hashes of a word set, as a
      duplicate-free sequence. */
  function TermHashes(words: seq<string>, wordHash: string -> Hash): (r: seq<Hash>)
    ensures NoDuplicates(r)
    ensures forall h :: h in r <==> exists w :: w in words && wordHash(w) == h
    decreases |words|
  {
    if words == [] then []
    else
      var rest := TermHashes(words[1..], wordHash);
      assert forall w :: w in words[1..] ==> w in words;
      assert forall w :: w in words ==> w == words[0] || w in words[1..];
      if wordHash(words[0]) in rest then rest else [wordHash(words[0])] + rest
  }

  /** Removes the postings of URL `u` from the containers of `hs`; the count
      is the number of postings removed. */
  function RemoveUrl(idx: Index<Posting>, hs: seq<Hash>, u: Hash): (Index<Posting>, nat)
    decreases |hs|
  {
    if hs == [] then (idx, 0)
    else
      var h := hs[0];
      var before := Lookup(idx, h);
      var after := Untagged(before, u);
      var idx' := if h in idx then idx[h := after] else idx;
      var rest := RemoveUrl(idx', hs[1..], u);
      (rest.0, rest.1 + (|before| - |after|))
  }

  /** Reference count: the tagged postings under each of `hs`, read from the
      index before anything is removed. */
  function TaggedUnder(idx: Index<Posting>, hs: seq<Hash>, u: Hash): nat
    decreases |hs|
  {
    if hs == [] then 0 else |Tagged(Lookup(idx, hs[0]), u)| + TaggedUnder(idx, hs[1..], u)
  }

  lemma {:induction false} TaggedUnderFrame(idx: Index<Posting>, idx': Index<Posting>, hs: seq<Hash>, u: Hash)
    requires forall k :: k in hs ==> Lookup(idx, k) == Lookup(idx', k)
    ensures TaggedUnder(idx, hs, u) == TaggedUnder(idx', hs, u)
    decreases |hs|
  {
    if hs != [] {
      assert hs[0] in hs;
      assert forall k :: k in hs[1..] ==> k in hs;
      TaggedUnderFrame(idx, idx', hs[1..], u);
    }
  }

  /** One step of the batch removal, seen from the index. */
  function RemoveStep(idx: Index<Posting>, h: Hash, u: Hash): (r: Index<Posting>)
    ensures Lookup(r, h) == Untagged(Lookup(idx, h), u)
    ensures forall k :: k != h ==> Lookup(r, k) == Lookup(idx, k)
  {
    if h in idx then idx[h := Untagged(idx[h], u)] else idx
  }

  lemma RemoveUrlUnfold(idx: Index<Posting>, hs: seq<Hash>, u: Hash)
    requires hs != []
    ensures RemoveUrl(idx, hs, u).0 == RemoveUrl(RemoveStep(idx, hs[0], u), hs[1..], u).0
    ensures RemoveUrl(idx, hs, u).1 == RemoveUrl(RemoveStep(idx, hs[0], u), hs[1..], u).1
                                       + (|Lookup(idx, hs[0])| - |Untagged(Lookup(idx, hs[0]), u)|)
  {
  }

  /** Batch removal: every listed container loses exactly the postings of
      `u` (the others keep their order) and every other container is untouched. */
  lemma {:induction false} RemoveUrlContents(idx: Index<Posting>, hs: seq<Hash>, u: Hash, k: Hash)
    ensures Lookup(RemoveUrl(idx, hs, u).0, k)
            == if k in hs then Untagged(Lookup(idx, k), u) else Lookup(idx, k)
    decreases |hs|
  {
    if hs != [] {
      var h := hs[0];
      var idx' := RemoveStep(idx, h, u);
      RemoveUrlUnfold(idx, hs, u);
      RemoveUrlContents(idx', hs[1..], u, k);
      assert k in hs <==> k == h || k in hs[1..];
      if k == h {
        UntaggedIdempotent(Lookup(idx, h), u);
      }
    }
  }

  /** Over distinct hashes the returned count is the number of postings of
      `u` the listed containers held beforehand. */
  lemma {:induction false} RemoveUrlCount(idx: Index<Posting>, hs: seq<Hash>, u: Hash)
    requires NoDuplicates(hs)
    ensures RemoveUrl(idx, hs, u).1 == TaggedUnder(idx, hs, u)
    decreases |hs|
  {
    if hs != [] {
      var h := hs[0];
      var idx' := RemoveStep(idx, h, u);
      RemoveUrlUnfold(idx, hs, u);
      assert NoDuplicates(hs[1..]);
      RemoveUrlCount(idx', hs[1..], u);
      UntaggedSplit(Lookup(idx, h), u);
      assert h !in hs[1..];
      TaggedUnderFrame(idx, idx', hs[1..], u);
    }
  }

  /** A container holding only postings of `u` is emptied. */
  lemma {:induction false} UntaggedAll(ps: seq<Posting>, u: Hash)
    requires forall x :: x in ps ==> x.urlHash == u
    ensures Untagged(ps, u) == []
    decreases |ps|
  {
    if ps != [] {
      assert ps[0] in ps;
      assert forall x :: x in ps[1..] ==> x in ps;
      UntaggedAll(ps[1..], u);
    }
  }

  lemma {:induction false} UntaggedIdempotent(ps: seq<Posting>, u: Hash)
    ensures Untagged(Untagged(ps, u), u) == Untagged(ps, u)
  {
    UntaggedNone(Untagged(ps, u), u);
  }
}

=== FILE: urlderivation.dfy ===
/** The two URL-derivation helpers of `plasmaParser`: `allReflinks` pulls a
    URL embedded in another URL out of it, `allSubpaths` lists the parent
    directories of a URL. URLs are handled in their normal form; whether
    a string makes a URL at all is the `parses` parameter. */
module UrlDerivation {

  import opened Base
  import opened JavaText

  /** An element of the link collection: a URL (given by its normal form)
      or a string the URL constructor rejects. */
  datatype Link = Normalform(url: string) | Malformed(raw: string)

  // ---------------------------------------------------------------------
  // searching

  /** The last occurrence of `pat` in `s` at or after `from`. */
  function LastFrom(s: string, pat: string, from: nat): (r: Option<nat>)
    ensures r.Some? ==> from <= r.value && OccursAt(s, pat, r.value)
    ensures r.Some? ==> forall k :: r.value < k ==> !OccursAt(s, pat, k)
    ensures r.None? ==> forall k :: from <= k ==> !OccursAt(s, pat, k)
    decreases |s| - from
  {
    if from + |pat| > |s| then None
    else
      var later := LastFrom(s, pat, from + 1);
      if later.Some? then later
      else if OccursAt(s, pat, from) then Some(from)
      else None
  }

  /** A pattern whose first character does not recur in it cannot overlap
      itself. */
  lemma NoSelfOverlap(s: string, pat: string, a: int, b: int)
    requires pat != [] && pat[0] !in pat[1..]
    requires OccursAt(s, pat, a) && OccursAt(s, pat, b) && a < b
    ensures b >= a + |pat|
  {
    OccursAtChars(s, pat, a);
    OccursAtChars(s, pat, b);
  }

  /** Searching `prefix + u[off..]`, lower-cased, beyond the prefix is
      searching `u`, lower-cased, from `off` on. */
  lemma OccursShifted(u: string, prefix: string, off: nat, pat: string, p: nat)
    requires off <= |u| && |prefix| <= p
    ensures OccursAt(Lower(prefix + u[off..]), pat, p) <==> OccursAt(Lower(u), pat, off + p - |prefix|)
  {
    var x := Lower(prefix + u[off..]);
    var q := off + p - |prefix|;
    assert |x| - p == |u| - q;
    if p + |pat| <= |x| {
      forall i | p <= i < p + |pat| ensures x[i] == Lower(u)[i - p + q] {
        assert (prefix + u[off..])[i] == u[i - p + q];
      }
      assert x[p..p + |pat|] == Lower(u)[q..q + |pat|];
    }
  }

  lemma OccursSuffix(u: string, off: nat, pat: string, p: nat)
    requires off <= |u|
    ensures OccursAt(Lower(u[off..]), pat, p) <==> OccursAt(Lower(u), pat, off + p)
  {
    OccursShifted(u, "", off, pat, p);
    assert "" + u[off..] == u[off..];
  }

  lemma OccursShiftedTo(u: string, prefix: string, off: nat, pat: string, p: nat, t: nat)
    requires off <= |u| && |prefix| <= p && t == off + p - |prefix|
    requires OccursAt(Lower(u), pat, t)
    ensures OccursAt(Lower(prefix + u[off..]), pat, p)
  {
    OccursShifted(u, prefix, off, pat, p);
  }

  // ---------------------------------------------------------------------
  // allReflinks

  const HttpPattern: string := "http://"
  const WwwPattern: string := "/www."
  /** What an embedded `/www.` reference is completed with. */
  const WwwPrefix: string := "http:/"

  /** The reference embedded in a URL's normal form: the suffix from the
      last `http://` at index 7 or beyond, any case; failing that,
      `http:/` followed by the suffix from the last such `/www.`. */
  function RefLink(u: string): (r: Option<string>)
    ensures r.Some? ==> (exists p :: 7 <= p && OccursAt(Lower(u), HttpPattern, p))
                        || (exists p :: 7 <= p && OccursAt(Lower(u), WwwPattern, p))
    ensures r.None? ==> forall p :: 7 <= p ==> !OccursAt(Lower(u), HttpPattern, p) && !OccursAt(Lower(u), WwwPattern, p)
    ensures r.Some? ==> EndsWith(u, r.value) || (StartsWith(r.value, WwwPrefix) && EndsWith(u, r.value[|WwwPrefix|..]))
  {
    var h := LastFrom(Lower(u), HttpPattern, 7);
    if h.Some? then Some(u[h.value..])
    else
      var w := LastFrom(Lower(u), WwwPattern, 7);
      if w.Some? then Some(WwwPrefix + u[w.value..]) else None
  }

  /** One round of the inner loop: an occurrence found beyond the prefix
      is an occurrence in the URL further right. */
  lemma CutStep(u: string, pat: string, prefix: string, off: nat, p: nat)
    requires off <= |u| && |prefix| < 7 <= p
    requires OccursAt(Lower(prefix + u[off..]), pat, p)
    ensures OccursAt(Lower(u), pat, off + p - |prefix|)
    ensures prefix + (prefix + u[off..])[p..] == prefix + u[off + p - |prefix|..]
  {
    OccursShifted(u, prefix, off, pat, p);
    assert (prefix + u[off..])[p..] == u[off + p - |prefix|..];
  }

  /** When the loop stops at an occurrence, that is the last occurrence. */
  lemma CutExit(u: string, pat: string, prefix: string, off: nat, last: nat)
    requires pat != [] && pat[0] !in pat[1..]
    requires |prefix| < 7 <= |prefix| + |pat|
    requires off <= last <= |u|
    requires OccursAt(Lower(u), pat, off) && OccursAt(Lower(u), pat, last)
    requires IndexOfFrom(Lower(prefix + u[off..]), pat, 7).None?
    ensures off == last
  {
    if off < last {
      NoSelfOverlap(Lower(u), pat, off, last);
      var q: nat := last - off + |prefix|;
      OccursShiftedTo(u, prefix, off, pat, q, last);
    }
  }

  /** The inner loop of `allReflinks` for one pattern: having found `pat`
      at index 7 or beyond, keep cutting the string to `prefix` followed
      by the text from the next such occurrence until none is left. */
  method CutToLast(u: string, pat: string, prefix: string) returns (r: string)
    requires pat != [] && pat[0] !in pat[1..]
    requires |prefix| < 7 <= |prefix| + |pat|
    requires LastFrom(Lower(u), pat, 7).Some?
    ensures r == prefix + u[LastFrom(Lower(u), pat, 7).value..]
  {
    var last := LastFrom(Lower(u), pat, 7).value;
    var off := IndexOfFrom(Lower(u), pat, 7).value;
    r := prefix + u[off..];
    var next := IndexOfFrom(Lower(r), pat, 7);
    while next.Some?
      invariant 7 <= off <= last <= |u|
      invariant OccursAt(Lower(u), pat, off)
      invariant r == prefix + u[off..]
      invariant next == IndexOfFrom(Lower(r), pat, 7)
      decreases |u| - off
    {
      var p := next.value;
      CutStep(u, pat, prefix, off, p);
      r := prefix + r[p..];
      off := off + p - |prefix|;
      next := IndexOfFrom(Lower(r), pat, 7);
    }
    CutExit(u, pat, prefix, off, last);
  }

  /** What `allReflinks` does with one URL: the embedded reference, found
      the way the source's loops find it. */
  method ExtractRefLink(u: string) returns (r: Option<string>)
    ensures r == RefLink(u)
  {
    var lower := Lower(u);
    if IndexOfFrom(lower, HttpPattern, 7).Some? {
      var cut := CutToLast(u, HttpPattern, "");
      assert cut == u[LastFrom(lower, HttpPattern, 7).value..];
      return Some(cut);
    }
    if IndexOfFrom(lower, WwwPattern, 7).Some? {
      var cut := CutToLast(u, WwwPattern, WwwPrefix);
      return Some(cut);
    }
    return None;
  }

  /** A `http://` reference starts, in any case, with `http://` and holds
      no other `http://` at index 7 or beyond; a `/www.` reference starts
      with `http://www.` and holds no other `/www.` at index 7 or beyond. */
  lemma RefLinkHasNoFurtherReference(u: string)
    requires RefLink(u).Some?
    ensures var v := RefLink(u).value;
            (StartsWith(Lower(v), HttpPattern) && IndexOfFrom(Lower(v), HttpPattern, 7).None?)
            || (StartsWith(Lower(v), "http://www.") && IndexOfFrom(Lower(v), WwwPattern, 7).None?)
  {
    var h := LastFrom(Lower(u), HttpPattern, 7);
    if h.Some? {
      HttpRefClean(u, h.value);
    } else {
      WwwRefClean(u, LastFrom(Lower(u), WwwPattern, 7).value);
    }
  }

  /** The suffix from the last `http://` starts with it and holds no other. */
  lemma HttpRefClean(u: string, p: nat)
    requires p <= |u| && OccursAt(Lower(u), HttpPattern, p)
    requires forall k :: p < k ==> !OccursAt(Lower(u), HttpPattern, k)
    ensures StartsWith(Lower(u[p..]), HttpPattern)
    ensures IndexOfFrom(Lower(u[p..]), HttpPattern, 7).None?
  {
    var lv := Lower(u[p..]);
    assert forall k :: 7 <= k ==> !OccursAt(lv, HttpPattern, k) by {
      forall k | 7 <= k ensures !OccursAt(lv, HttpPattern, k) {
        OccursSuffix(u, p, HttpPattern, k);
      }
    }
    assert OccursAt(lv, HttpPattern, 0) by {
      OccursSuffix(u, p, HttpPattern, 0);
    }
  }

  /** `http:/` followed by the suffix from the last `/www.` starts with
      `http://www.` and holds no other `/www.`. */
  lemma WwwRefClean(u: string, p: nat)
    requires p <= |u| && OccursAt(Lower(u), WwwPattern, p)
    requires forall k :: p < k ==> !OccursAt(Lower(u), WwwPattern, k)
    ensures StartsWith(Lower(WwwPrefix + u[p..]), "http://www.")
    ensures IndexOfFrom(Lower(WwwPrefix + u[p..]), WwwPattern, 7).None?
  {
    var v := WwwPrefix + u[p..];
    forall k | 7 <= k ensures !OccursAt(Lower(v), WwwPattern, k) {
      OccursShifted(u, WwwPrefix, p, WwwPattern, k);
    }
    OccursShifted(u, WwwPrefix, p, WwwPattern, 6);
    assert Lower(v)[..6] == WwwPrefix;
    assert Lower(v)[6..11] == WwwPattern;
    assert Lower(v)[..11] == "http://www.";
  }

  /** Links that `allReflinks` leaves in the collection. */
  predicate KeptByReflinks(l: Link) {
    l.Malformed? || RefLink(l.url).None?
  }

  /** `allReflinks`: the references found (those that make a URL), and the
      collection with every link that held one removed. A link whose
      reference does not make a URL is removed all the same. */
  function AllReflinks(links: seq<Link>, parses: string -> bool): (r: (set<string>, seq<Link>))
    ensures forall v :: v in r.0 <==>
              (parses(v) && exists i :: 0 <= i < |links| && links[i].Normalform? && RefLink(links[i].url) == Some(v))
    ensures forall l :: l in r.1 <==> l in links && KeptByReflinks(l)
    ensures |r.1| <= |links|
  {
    if links == [] then ({}, [])
    else
      var rest := AllReflinks(links[1..], parses);
      var l := links[0];
      assert forall i :: 0 < i < |links| ==> links[i] == links[1..][i - 1];
      if KeptByReflinks(l) then
        (rest.0, [l] + rest.1)
      else
        var v := RefLink(l.url).value;
        (if parses(v) then {v} + rest.0 else rest.0, rest.1)
  }

  // ---------------------------------------------------------------------
  // allSubpaths

  /** The URL without one trailing slash. */
  function DropSlash(u: string): (b: string)
    ensures StartsWith(u, b) && |u| - 1 <= |b|
  {
    if EndsWith(u, "/") then u[..|u| - 1] else u
  }

  /** `s` is a parent-directory stub of `base`: a prefix of it ending in
      `/`, at least ten characters long (the slash is beyond index 8). */
  predicate IsStub(base: string, s: string) {
    10 <= |s| <= |base| && base[..|s|] == s && s[|s| - 1] == '/'
  }

  /** The stubs of a URL: one per slash beyond index 8 of the URL with one
      trailing slash dropped. */
  function Stubs(u: string): (r: set<string>)
    ensures forall s :: s in r <==> IsStub(DropSlash(u), s)
  {
    var b := DropSlash(u);
    var r := set p | 8 < p < |b| && b[p] == '/' :: b[..p + 1];
    assert forall s :: IsStub(b, s) ==> s == b[..(|s| - 1) + 1] && b[|s| - 1] == '/';
    r
  }

  /** The loop of `allSubpaths` for one URL: from the right, cut after each
      slash while the slash lies beyond index 8. */
  method SubpathsOf(u: string) returns (stubs: set<string>)
    ensures stubs == Stubs(u)
  {
    var base := DropSlash(u);
    var w := base;
    var pos := LastIndexOf(w, '/');
    stubs := {};
    while pos > 8
      invariant |w| <= |base| && w == base[..|w|]
      invariant pos == LastIndexOf(w, '/')
      invariant forall s :: s in stubs <==> IsStub(base, s) && |s| > |w|
      decreases |w|
    {
      StubStep(base, w, pos);
      stubs := stubs + {w[..pos + 1]};
      w := w[..pos];
      pos := LastIndexOf(w, '/');
    }
    StubExit(base, w, pos);
  }

  /** One round of the loop: the stubs longer than the last slash of `w`
      are those longer than `w` and the one cut after that slash. */
  lemma StubStep(base: string, w: string, pos: int)
    requires |w| <= |base| && w == base[..|w|]
    requires pos == LastIndexOf(w, '/') && pos > 8
    ensures forall s :: IsStub(base, s) && |s| > pos <==> (IsStub(base, s) && |s| > |w|) || s == w[..pos + 1]
  {
    assert w[..pos + 1] == base[..pos + 1];
    forall s | IsStub(base, s) && pos < |s| <= |w| ensures s == w[..pos + 1] {
      assert w[|s| - 1] == base[|s| - 1];
    }
  }

  /** Once no slash lies beyond index 8, no stub fits in `w`. */
  lemma StubExit(base: string, w: string, pos: int)
    requires |w| <= |base| && w == base[..|w|]
    requires pos == LastIndexOf(w, '/') && pos <= 8
    ensures forall s :: IsStub(base, s) ==> |s| > |w|
  {
    assert forall j :: 0 <= j < |w| ==> w[j] == base[j];
  }

  /** Each stub is a prefix of the URL that ends in a slash and is at
      least ten characters long; the one-slash-shorter URL is never one. */
  lemma StubsArePrefixes(u: string, s: string)
    requires s in Stubs(u)
    ensures StartsWith(u, s) && EndsWith(s, "/") && 10 <= |s| < |u|
  {
    var b := DropSlash(u);
    assert u[..|s|] == b[..|s|];
  }

  /** `allSubpaths`: the stubs of every well-formed link that make a URL. */
  function AllSubpaths(links: seq<Link>, parses: string -> bool): (r: set<string>)
    ensures forall s :: s in r <==>
              (parses(s) && exists i :: 0 <= i < |links| && links[i].Normalform? && IsStub(DropSlash(links[i].url), s))
  {
    if links == [] then {}
    else
      var rest := AllSubpaths(links[1..], parses);
      assert forall i :: 0 < i < |links| ==> links[i] == links[1..][i - 1];
      if links[0].Malformed? then rest
      else rest + set s | s in Stubs(links[0].url) && parses(s)
  }
}
